=== FILE: README.md ===
# social_app backend handlers in Dafny

This project models the Cloud Functions backend of a social app
(`functions/src/index.ts`). Each document trigger and the
`approveFollowRequest` callable is a pure transition on an immutable store
value. The store holds user profiles, counter fields, push tokens,
follower/following edges, follow requests, per-user notification lists,
posts and conversations. Under the transitions sit the string and sequence
helpers the handlers use:

- the `@username` scanner;
- the chat body preview and the push body fallback;
- the post thumbnail resolver and the 60-character comment body;
- the `displayName || 'Someone'` name fallbacks;
- chat recipient selection;
- the choice of push tokens to drop after a multicast.

Files, one module each:

- `basics.dfy`: optional fields, call results, JavaScript truthiness of a string field.
- `text.dfy`: prefix truncation, chat preview, push body.
- `mentions.dfy`: the mention scanner. A reference function says what the expression matches. A loop method follows the `re.exec` scan and is proved equal to it.
- `media.dfy`: the shapes of the `media` field, the thumbnail, the attachment count.
- `push.dfy`: recipients, failure count, stale-token selection, array-remove, `filter(Boolean)`.
- `store.dfy`: the store, `incUser` (merge-increment), `addNotification` (append, unread), the notification loop.
- `handlers.dfy`: every trigger and the callable.
- `tallies.dfy`: the counters against the documents they count, with document writes that fire their triggers.
- `scenarios.dfy`: two end-to-end runs.

Inputs that come from outside the store are parameters. These are the
path parameters, the triggering document's fields, the caller identity, the
username lookup (`lookup: string -> Option<Uid>`) and the push transport
(`send: Multicast -> SendOutcome`).

Behaviour of `index.ts` worth noting:

- The chat sender's name falls back from `displayName` to `name` and only then to `"Someone"`.
- The mention handler does not exclude the comment's author. `Handlers.SelfMentionNotifiesAuthor` states this.
- A multicast goes to all of a recipient's non-empty tokens in one call; the list is not split into batches of 500.
- Repeated mentions and repeated conversation members each produce their own notification.
- Notification titles are literal constants (`started following you`, `liked your post`, `commented on your post`, `You were mentioned in a comment`); a chat notification is titled with the sender's name.

## Model

| member | source | states |
|---|---|---|
| Text.Prefix | functions/src/index.ts:228 | `substring(0, n)` keeps the first min(n, length) characters, is a prefix of the text, and is the whole text when it fits |
| Text.ChatPreview | functions/src/index.ts:252 | empty text with attachments gives `[Media]`; empty text without them gives `""`; text over 120 characters gives its first 120 characters then `...` (length 123); other text is kept; the preview is empty exactly when text and attachments are both absent |
| Text.PushBody | functions/src/index.ts:295 | the push body is never empty: the preview when it is not empty, else `[New message]` |
| Mentions.RunEnd | functions/src/index.ts:126 | the greedy `[a-zA-Z0-9_]+` run: every character up to the end is a word character, and the run stops at the text's end or at a non-word character |
| Mentions.ScanRun | functions/src/index.ts:126 | the scan over the greedy run stops exactly where the maximal word run ends |
| Mentions.ExtractMentions | functions/src/index.ts:125-133 | the `re.exec` loop, resuming where each match ends, returns exactly the reference mention list: left to right, each `@` followed by a word character contributes its maximal word run |
| Mentions.MentionsAreUsernames | functions/src/index.ts:125-133 | every result is a non-empty run of word characters; each result is the capture of a match in the text, and each match's capture is among the results |
| Mentions.NoAtSignNoMentions | functions/src/index.ts:125-133 | text with no `@`, the empty text included, yields no mentions |
| Mentions.MentionsExample | functions/src/index.ts:125-133 | `"hi @a @b @a"` yields `["a", "b", "a"]`: order of appearance, duplicates kept |
| Media.ThumbUrl | functions/src/index.ts:184-186 | a list gives its first element's url or `""`, later elements never matter; a scalar is used as it is; a missing field gives `""` |
| Media.AttachmentCount | functions/src/index.ts:249 | a list counts its elements; any non-list counts as no attachments |
| Push.ChatRecipients | functions/src/index.ts:272-273 | a user is a recipient iff they are a truthy member id other than the sender; the sender and the empty id never appear |
| Push.ChatRecipientsCount | functions/src/index.ts:272-273 | each truthy member other than the sender is a recipient exactly as often as they are listed |
| Push.IsStale | functions/src/index.ts:318-321 | a response is stale only if it is a rejection with a code; both permanent codes are stale, and any other code is not |
| Push.FailureCount | functions/src/index.ts:315 | the failure count is zero exactly when every token was delivered |
| Push.StaleTokens | functions/src/index.ts:316-325 | a token is selected iff some position holding it reported `registration-token-not-registered` or `invalid-registration-token` |
| Push.TokensToRemove | functions/src/index.ts:315-326 | for a response list aligned with the tokens, the removal list holds exactly the tokens at positions with a permanent error |
| Push.ArrayRemove | functions/src/index.ts:327 | array-remove keeps a stored token iff it is not in the removal list, and changes nothing for an empty list |
| Push.ArrayRemoveCount | functions/src/index.ts:327 | array-remove drops every instance of a removed token and keeps every other token as many times as it was stored |
| Push.LiveTokens | functions/src/index.ts:289 | `filter(Boolean)` keeps exactly the non-empty stored tokens |
| Push.CleanupExample | functions/src/index.ts:315-328 | of two tokens, the one reported as not registered is dropped and the other is kept |
| Store.IncUser | functions/src/index.ts:10-16 | the merge-increment turns an absent field into `delta` and adds `delta` to a present one; no other counter and no other collection changes |
| Store.AddNotification | functions/src/index.ts:19-30 | exactly one unread, server-stamped notification is appended to the recipient's list; no other list or collection changes |
| Store.NotifyAll | functions/src/index.ts:146-162 | the notification loop changes only notification lists, and a user not in the target list keeps their list |
| Store.NotifyAllCounts | functions/src/index.ts:146-162 | notifying a list of users appends to each user as many copies as they occur in the list |
| Store.IncrementsAddUp | functions/src/index.ts:10-16 | after any sequence of increments, a counter equals its start value plus the sum of the deltas |
| Store.IncUserCommutes | functions/src/index.ts:10-16 | two increments, of the same or different fields, give the same store in either order |
| Handlers.DisplayName | functions/src/index.ts:40-41 | the follower's or liker's name is their display name when it is truthy, else `Someone`; never empty |
| Handlers.SenderName | functions/src/index.ts:262-269 | the chat sender's name is the display name, else the `name` field, else `Someone`; never empty |
| Handlers.OnFollowerAdded | functions/src/index.ts:34-49 | the followed user's `followersCount` grows by one and they get one `follow` notification from the follower; nothing else changes |
| Handlers.OnFollowerRemoved | functions/src/index.ts:51-56 | `followersCount` drops by one; nothing else changes |
| Handlers.OnFollowingAdded | functions/src/index.ts:59-64 | `followingCount` grows by one; nothing else changes |
| Handlers.OnFollowingRemoved | functions/src/index.ts:66-71 | `followingCount` drops by one; nothing else changes |
| Handlers.FollowerAddThenRemove | functions/src/index.ts:34-56 | a follower added then removed leaves every counter reading as before |
| Handlers.FollowTriggersCommute | functions/src/index.ts:34-64 | the follower-side and following-side triggers of one edge give the same store in either order |
| Handlers.ApproveFollowRequest | functions/src/index.ts:75-106 | fails with `unauthenticated` without a caller, `invalid-argument` without a truthy `followerUid`, and `failed-precondition` when the request is absent or not `pending`, each leaving the store unchanged; succeeds exactly otherwise, with `{ok: true}`, the request deleted, the follower edge under the owner and the following edge under the follower, and nothing else changed |
| Handlers.NotifyPostAuthor | functions/src/index.ts:175-196 | no notification when the post is missing or the actor is its author; otherwise exactly one, to the author, with the actor's name and the post thumbnail; the actor's own list never changes |
| Handlers.OnPostLiked | functions/src/index.ts:171-197 | a like on a missing post or by the post's author changes nothing; otherwise the author's list gains exactly one entry at its end, an unread `like` from the liker with the liker's name, the post id, the thumbnail, title `liked your post`, an empty body, no chat reference and the server timestamp; no other list changes, the liker's included |
| Handlers.OnPostCommented | functions/src/index.ts:200-230 | a comment on a missing post or by the post's author changes nothing; otherwise the author's list gains exactly one entry at its end, an unread `comment` from the commenter with their name, the post id, the thumbnail, title `commented on your post` and as body the first min(60, length) characters of the text, no chat reference and the server timestamp; no other list changes, the commenter's included |
| Handlers.Resolve | functions/src/index.ts:146-151 | a user is a mention target iff some mentioned username looks up to them; missed lookups are skipped |
| Handlers.ResolveCount | functions/src/index.ts:146-151 | duplicates are kept: a user occurs among the targets exactly as often as the lookup of a mentioned username answers with them |
| Handlers.OnCommentCreated | functions/src/index.ts:136-163 | only notification lists change, and only for users some mention resolves to |
| Handlers.MentionNotifications | functions/src/index.ts:136-163 | each user gets, appended to their list, one `mention` notification carrying the full text per mention whose lookup answers with them, and at least one iff some mention resolves to them |
| Handlers.SelfMentionNotifiesAuthor | functions/src/index.ts:146-160 | an author who mentions a username that resolves to themself is notified of their own comment |
| Handlers.OnPostCreated | functions/src/index.ts:233-238 | the author's `postsCount` grows by one; nothing else changes |
| Handlers.PushTo | functions/src/index.ts:285-329 | no change when the recipient has no non-empty token or the send throws; on an aligned response list the recipient keeps exactly the stored tokens not reported as permanently invalid; no update when nothing is to be removed; no other user's tokens change |
| Handlers.Issued | functions/src/index.ts:287-305 | a recipient is sent a multicast exactly when one of their stored tokens is non-empty; it goes to exactly the non-empty stored tokens, with the given title, body and data |
| Handlers.Deliver | functions/src/index.ts:275-329 | one pass of the loop appends exactly one fresh notification to the recipient's list, leaves every other user's notifications and tokens as they were, removes tokens without adding any, and changes nothing but notification and token lists |
| Handlers.PushToLocal | functions/src/index.ts:285-329 | the push step's effect on a recipient's tokens depends only on that recipient's stored tokens |
| Handlers.FanOut | functions/src/index.ts:272-333 | the fan-out loop changes only notification lists and token lists |
| Handlers.FanOutNotifications | functions/src/index.ts:272-283 | whatever the transport reports, each user gets one in-app notification per occurrence in the recipient list |
| Handlers.FanOutTokens | functions/src/index.ts:285-329 | only recipients' token lists change, and no user ever gains a token |
| Handlers.FanOutTokensOf | functions/src/index.ts:272-333 | a recipient listed once ends the loop with the tokens the push step alone leaves them, so stale tokens are removed exactly as for a single push |
| Handlers.FanOutSends | functions/src/index.ts:272-313 | the loop sends at most one multicast per pass |
| Handlers.FanOutSendsCount | functions/src/index.ts:272-313 | no user is sent more multicasts than they occur in the recipient list |
| Handlers.FanOutSendsSound | functions/src/index.ts:272-313 | every multicast the loop sends is for a recipient, carries the loop's title, body and data, and goes to a non-empty list of that recipient's non-empty stored tokens |
| Handlers.FanOutSendsComplete | functions/src/index.ts:285-313 | a recipient holding a non-empty token is sent a multicast to exactly their non-empty stored tokens |
| Handlers.OnChatMessageCreated | functions/src/index.ts:242-334 | a missing conversation is a no-op; the sender never gets a chat notification; only notifications and token lists change, and tokens are only removed |
| Handlers.ChatNotifications | functions/src/index.ts:246-283 | a user gets a chat notification, with the preview as body, iff they are a truthy member other than the sender, once per listing |
| Handlers.ChatTokens | functions/src/index.ts:285-329 | for a member listed once: without a non-empty token, or when the send throws, the tokens stay as they are; on a response list aligned with the tokens sent, the member keeps exactly the stored tokens not reported `registration-token-not-registered` or `invalid-registration-token` |
| Handlers.ChatSends | functions/src/index.ts:255-257 | a message in a missing conversation sends no push |
| Handlers.ChatPushes | functions/src/index.ts:272-313 | pushes go only to truthy members other than the sender, titled with the sender's name, with the preview or `[New message]` as body and the chat data, to a non-empty list of the member's non-empty tokens; every such member holding a non-empty token is pushed to all of them; no user is pushed more often than listed, and a member listed once who holds a non-empty token is pushed exactly once |
| Handlers.ChatPushCount | functions/src/index.ts:272-313 | a truthy non-sender member is pushed to at most as often as listed, and exactly once when listed once with a non-empty token |
| Tallies.WriteFollowerKeepsTallies | functions/src/index.ts:34-49 | writing a follower edge, with its trigger firing only on creation, keeps every counter equal to the count of what it counts |
| Tallies.DeleteFollowerKeepsTallies | functions/src/index.ts:51-56 | deleting a follower edge keeps every counter equal to its count |
| Tallies.WriteFollowingKeepsTallies | functions/src/index.ts:59-64 | writing a following edge keeps every counter equal to its count |
| Tallies.DeleteFollowingKeepsTallies | functions/src/index.ts:66-71 | deleting a following edge keeps every counter equal to its count |
| Tallies.CreatePostKeepsTallies | functions/src/index.ts:233-238 | creating a post keeps every counter equal to its count |
| Tallies.ApproveKeepsTallies | functions/src/index.ts:94-104 | an approval and the triggers its batch fires keep every counter equal to its count |
| Scenarios.LikeOfPostWithoutMedia | functions/src/index.ts:171-197 | a like on a media-less post gives the author one unread `like` from the liker with thumbnail `""`, and nothing to the liker |
| Scenarios.HelloBetweenTwo | functions/src/index.ts:242-334 | members `[a, b]`, `a` sends `hello`: `b` gets one `chat` notification with body `hello`, `a` gets none, only `b`'s tokens can change, and the only push is one to `b`'s non-empty tokens, titled with `a`'s name and with body `hello`, sent exactly when `b` has such a token |

## Left out

- `reportPost` (functions/src/index.ts:108-122): a single record write with no logic.
- SDK wiring, trigger registration by path pattern and console logging. Handlers are plain functions of their path parameters.
- Server timestamps: `createdAt` is the single value `ServerTime`.
- The username query is a parameter `lookup`. Which user "first match" picks is the lookup's choice, and uniqueness of usernames is not modelled.
- The push transport is a parameter `send`, a deterministic function of the multicast it is given. A thrown send is `SendFailed` and leaves the tokens alone.
- A response list whose length differs from the token list: the messaging SDK returns one response per token, in order; the model performs no cleanup for any other list.
- A failure of the sender-profile read (caught at functions/src/index.ts:267) and a failure of the token update after a send: failing reads and writes are not modelled.
- Documents without `authorId`, `authorName` or `senderId`, member ids and `url`s that are truthy non-strings, and non-string `text`: the model takes these fields as strings. The source would throw on an undefined document id or field.
- At-least-once redelivery, concurrent triggers and trigger ordering are runtime concerns. `Store.IncUserCommutes` and `Handlers.FollowTriggersCommute` cover only the order of two triggers.
- Deleting a post, reaction or comment fires no handler in the source. `Tallies` therefore covers post creation only.
- Handlers.ChatNotifications: states how many notifications each user receives, not the order across users. The loop's member order is visible only in the separate per-user lists, and creation times are not modelled.
- JavaScript strings are UTF-16; `length` and `substring` here count characters.
- Store.IncUser: counters are unbounded integers. The source's `FieldValue.increment` (functions/src/index.ts:13) saturates at the 64-bit integer range and overwrites a field that holds no number with the increment; neither is modelled.
- A `media` field that is a truthy non-string scalar (a number, an object) is used as the thumbnail as it is (functions/src/index.ts:184-186, 217-219); the model's scalar media is a string only.
- Profile `displayName` and `name` fields that are truthy non-strings (functions/src/index.ts:41, 183, 216, 266), a truthy non-string `followerUid` (functions/src/index.ts:80-81) and truthy non-string entries of `fcmTokens` (functions/src/index.ts:289): the model takes all of these as strings, so such values cannot arise in it.

=== FILE: basics.dfy ===
/** Shared vocabulary: optional values, call results, the identifiers the
    handlers pass around, and JavaScript's truthiness of an optional string. */
module Basics {

  /** A field that may be missing from a document (`undefined` or `null`). */
  datatype Option<+T> = None | Some(value: T) {
    function GetOr(default: T): T {
      match this
      case Some(v) => v
      case None => default
    }
  }

  /** The outcome of a callable entry point: a reply or a structured error. */
  datatype Result<+R, +E> = Success(value: R) | Failure(error: E)

  type Uid = string
  type PostId = string
  type ConvId = string
  type MessageId = string
  type Token = string

  /** A string field is truthy when it is present and not the empty string. */
  predicate Truthy(o: Option<string>) {
    o.Some? && o.value != ""
  }

  /** The value of `o || fallback` for an optional string field. */
  function Or(o: Option<string>, fallback: string): (r: string)
    ensures Truthy(o) ==> r == o.value
    ensures !Truthy(o) ==> r == fallback
    ensures r == fallback || Truthy(Some(r))
  {
    if Truthy(o) then o.value else fallback
  }
}

=== FILE: handlers.dfy ===
/** Every document trigger and the follow-request callable, each as a
    transition from the store before the event to the store after it. Path
    parameters and the triggering document's fields are plain arguments. */
module Handlers {
  import opened Basics
  import opened Store
  import Text
  import Mentions
  import Media
  import Push

  const Anonymous := "Someone"
  const PendingStatus := "pending"

  // ---------- names ----------

  /** A user document's `displayName`, absent for a missing document. */
  function DisplayNameField(s: Store, uid: Uid): Option<string> {
    if uid in s.profiles then s.profiles[uid].displayName else None
  }

  /** A user document's `name`, absent for a missing document. */
  function NameField(s: Store, uid: Uid): Option<string> {
    if uid in s.profiles then s.profiles[uid].name else None
  }

  /** `displayName || 'Someone'` of a user document, a missing document
      having no display name. Never empty. */
  function DisplayName(s: Store, uid: Uid): (r: string)
    ensures r != ""
    ensures Truthy(DisplayNameField(s, uid)) ==> r == DisplayNameField(s, uid).value
    ensures !Truthy(DisplayNameField(s, uid)) ==> r == Anonymous
  {
    Or(DisplayNameField(s, uid), Anonymous)
  }

  /** The chat sender's name: `displayName || name || 'Someone'`. Never empty,
      and taken from the sender's own profile unless it is the fallback. */
  function SenderName(s: Store, uid: Uid): (r: string)
    ensures r != ""
    ensures r == Anonymous || Some(r) == DisplayNameField(s, uid) || Some(r) == NameField(s, uid)
    ensures Truthy(DisplayNameField(s, uid)) ==> r == DisplayNameField(s, uid).value
    ensures !Truthy(DisplayNameField(s, uid)) && Truthy(NameField(s, uid)) ==> r == NameField(s, uid).value
  {
    Or(DisplayNameField(s, uid), Or(NameField(s, uid), Anonymous))
  }

  // ---------- follow counters ----------

  function FollowPayload(followerUid: Uid, name: string): Payload {
    Payload(Follow, followerUid, name, None, None, "started following you", "", None)
  }

  /** Creation of `users/{uid}/followers/{followerUid}`. */
  function OnFollowerAdded(s: Store, uid: Uid, followerUid: Uid): (s': Store)
    ensures s' == s.(counters := s'.counters, notifications := s'.notifications)
    ensures CountOf(s', uid, FollowersCount) == CountOf(s, uid, FollowersCount) + 1
    ensures forall u, f :: (u != uid || f != FollowersCount) ==> Counter(s', u, f) == Counter(s, u, f)
    ensures NotificationsOf(s', uid)
         == NotificationsOf(s, uid) + [Fresh(FollowPayload(followerUid, DisplayName(s, followerUid)))]
    ensures forall u :: u != uid ==> NotificationsOf(s', u) == NotificationsOf(s, u)
  {
    var s1 := IncUser(s, uid, FollowersCount, 1);
    AddNotification(s1, uid, FollowPayload(followerUid, DisplayName(s1, followerUid)))
  }

  /** Deletion of `users/{uid}/followers/{followerUid}`. */
  function OnFollowerRemoved(s: Store, uid: Uid): (s': Store)
    ensures s' == s.(counters := s'.counters)
    ensures CountOf(s', uid, FollowersCount) == CountOf(s, uid, FollowersCount) - 1
    ensures forall u, f :: (u != uid || f != FollowersCount) ==> Counter(s', u, f) == Counter(s, u, f)
  {
    IncUser(s, uid, FollowersCount, -1)
  }

  /** Creation of `users/{uid}/following/{targetUid}`. */
  function OnFollowingAdded(s: Store, uid: Uid): (s': Store)
    ensures s' == s.(counters := s'.counters)
    ensures CountOf(s', uid, FollowingCount) == CountOf(s, uid, FollowingCount) + 1
    ensures forall u, f :: (u != uid || f != FollowingCount) ==> Counter(s', u, f) == Counter(s, u, f)
  {
    IncUser(s, uid, FollowingCount, 1)
  }

  /** Deletion of `users/{uid}/following/{targetUid}`. */
  function OnFollowingRemoved(s: Store, uid: Uid): (s': Store)
    ensures s' == s.(counters := s'.counters)
    ensures CountOf(s', uid, FollowingCount) == CountOf(s, uid, FollowingCount) - 1
    ensures forall u, f :: (u != uid || f != FollowingCount) ==> Counter(s', u, f) == Counter(s, u, f)
  {
    IncUser(s, uid, FollowingCount, -1)
  }

  /** A follower added and then removed leaves every counter reading as it
      was, though the field now exists. */
  lemma FollowerAddThenRemove(s: Store, uid: Uid, followerUid: Uid)
    ensures var s2 := OnFollowerRemoved(OnFollowerAdded(s, uid, followerUid), uid);
            (forall u, f :: CountOf(s2, u, f) == CountOf(s, u, f))
            && s2 == s.(counters := s2.counters, notifications := s2.notifications)
  {
  }

  /** The follower-side and following-side triggers of one edge may run in
      either order with the same result. */
  lemma FollowTriggersCommute(s: Store, owner: Uid, follower: Uid)
    ensures OnFollowingAdded(OnFollowerAdded(s, owner, follower), follower)
         == OnFollowerAdded(OnFollowingAdded(s, follower), owner, follower)
  {
    IncUserCommutes(s, owner, FollowersCount, 1, follower, FollowingCount, 1);
    var a := IncUser(s, owner, FollowersCount, 1);
    var b := IncUser(s, follower, FollowingCount, 1);
    assert DisplayName(IncUser(a, follower, FollowingCount, 1), follower) == DisplayName(s, follower);
  }

  // ---------- follow requests ----------

  datatype ErrorCode = Unauthenticated | InvalidArgument | FailedPrecondition

  datatype HttpsError = HttpsError(code: ErrorCode, message: string)

  datatype Ack = Ack(ok: bool)

  datatype CallOutcome = CallOutcome(store: Store, reply: Result<Ack, HttpsError>)

  predicate IsPending(s: Store, l: Link) {
    l in s.requests && s.requests[l].status == Some(PendingStatus)
  }

  /** The callable: the signed-in owner approves `followerUid`'s pending
      request. One batch deletes the request and writes both edges; each
      refusal leaves the store as it was. */
  function ApproveFollowRequest(s: Store, caller: Option<Uid>, followerUid: Option<string>): (out: CallOutcome)
    ensures out.reply.Failure? ==> out.store == s
    ensures caller.None? ==> out.reply == Failure(HttpsError(Unauthenticated, "Sign in required"))
    ensures caller.Some? && !Truthy(followerUid) ==>
              out.reply == Failure(HttpsError(InvalidArgument, "followerUid required"))
    ensures caller.Some? && Truthy(followerUid) && !IsPending(s, Link(caller.value, followerUid.value)) ==>
              out.reply == Failure(HttpsError(FailedPrecondition, "No pending request"))
    ensures out.reply.Success? <==>
              caller.Some? && Truthy(followerUid) && IsPending(s, Link(caller.value, followerUid.value))
    ensures out.reply.Success? ==>
              var owner := caller.value;
              var follower := followerUid.value;
              && out.reply.value == Ack(true)
              && Link(owner, follower) !in out.store.requests
              && out.store.requests == s.requests - {Link(owner, follower)}
              && out.store.followers == s.followers + {Link(owner, follower)}
              && out.store.following == s.following + {Link(follower, owner)}
              && out.store == s.(requests := out.store.requests,
                                 followers := out.store.followers,
                                 following := out.store.following)
  {
    if caller.None? then
      CallOutcome(s, Failure(HttpsError(Unauthenticated, "Sign in required")))
    else if !Truthy(followerUid) then
      CallOutcome(s, Failure(HttpsError(InvalidArgument, "followerUid required")))
    else
      var owner := caller.value;
      var follower := followerUid.value;
      var request := Link(owner, follower);
      if !IsPending(s, request) then
        CallOutcome(s, Failure(HttpsError(FailedPrecondition, "No pending request")))
      else
        var batch := s.(requests := s.requests - {request},
                        followers := s.followers + {request},
                        following := s.following + {Link(follower, owner)});
        CallOutcome(batch, Success(Ack(true)))
  }

  // ---------- likes and comments ----------

  /** A comment document's fields; a missing text reads as empty. */
  datatype CommentDoc = CommentDoc(authorId: Uid, authorName: string, text: Option<string>)

  function PostNotice(s: Store, postId: PostId, actor: Uid, kind: Kind, title: string, body: string): Payload
    requires postId in s.posts
  {
    Payload(kind, actor, DisplayName(s, actor), Some(postId),
            Some(Media.ThumbUrl(s.posts[postId].media)), title, body, None)
  }

  /** The shared shape of the like and comment handlers: nothing when the
      post is missing or the actor wrote it, and otherwise one notification
      to the post's author. */
  function NotifyPostAuthor(s: Store, postId: PostId, actor: Uid, kind: Kind, title: string, body: string): (s': Store)
    ensures s' == s.(notifications := s'.notifications)
    ensures postId !in s.posts || s.posts[postId].authorId == actor ==> s' == s
    ensures postId in s.posts && s.posts[postId].authorId != actor ==>
              var author := s.posts[postId].authorId;
              && NotificationsOf(s', author)
                 == NotificationsOf(s, author) + [Fresh(PostNotice(s, postId, actor, kind, title, body))]
              && forall u :: u != author ==> NotificationsOf(s', u) == NotificationsOf(s, u)
    ensures NotificationsOf(s', actor) == NotificationsOf(s, actor)
  {
    if postId !in s.posts then s
    else
      var author := s.posts[postId].authorId;
      if author == actor then s
      else AddNotification(s, author, PostNotice(s, postId, actor, kind, title, body))
  }

  /** Creation of `posts/{postId}/reactions/{uid}`. */
  function OnPostLiked(s: Store, postId: PostId, uid: Uid): (s': Store)
    ensures s' == s.(notifications := s'.notifications)
    ensures NotificationsOf(s', uid) == NotificationsOf(s, uid)
    ensures postId !in s.posts || s.posts[postId].authorId == uid ==> s' == s
    ensures postId in s.posts && s.posts[postId].authorId != uid ==>
              var author := s.posts[postId].authorId;
              var n := NotificationsOf(s', author);
              && |n| == |NotificationsOf(s, author)| + 1
              && n[..|n| - 1] == NotificationsOf(s, author)
              && n[|n| - 1].payload.kind == Like
              && n[|n| - 1].payload.extra == None
              && n[|n| - 1].createdAt == ServerTime
              && n[|n| - 1].payload.fromUid == uid
              && n[|n| - 1].payload.fromName == DisplayName(s, uid)
              && n[|n| - 1].payload.postId == Some(postId)
              && n[|n| - 1].payload.postThumbUrl == Some(Media.ThumbUrl(s.posts[postId].media))
              && n[|n| - 1].payload.title == "liked your post"
              && n[|n| - 1].payload.body == ""
              && !n[|n| - 1].read
              && forall u :: u != author ==> NotificationsOf(s', u) == NotificationsOf(s, u)
  {
    NotifyPostAuthor(s, postId, uid, Like, "liked your post", "")
  }

  /** Creation of `posts/{postId}/comments/{commentId}`, notifying the post's
      author with the first 60 characters of the comment. */
  function OnPostCommented(s: Store, postId: PostId, c: CommentDoc): (s': Store)
    ensures s' == s.(notifications := s'.notifications)
    ensures NotificationsOf(s', c.authorId) == NotificationsOf(s, c.authorId)
    ensures postId !in s.posts || s.posts[postId].authorId == c.authorId ==> s' == s
    ensures postId in s.posts && s.posts[postId].authorId != c.authorId ==>
              var author := s.posts[postId].authorId;
              var n := NotificationsOf(s', author);
              && |n| == |NotificationsOf(s, author)| + 1
              && n[..|n| - 1] == NotificationsOf(s, author)
              && n[|n| - 1].payload.kind == Comment
              && n[|n| - 1].payload.extra == None
              && n[|n| - 1].createdAt == ServerTime
              && n[|n| - 1].payload.fromUid == c.authorId
              && n[|n| - 1].payload.fromName == DisplayName(s, c.authorId)
              && n[|n| - 1].payload.postId == Some(postId)
              && n[|n| - 1].payload.postThumbUrl == Some(Media.ThumbUrl(s.posts[postId].media))
              && n[|n| - 1].payload.title == "commented on your post"
              && |n[|n| - 1].payload.body| == Text.Min(Text.CommentCap, |Or(c.text, "")|)
              && n[|n| - 1].payload.body <= Or(c.text, "")
              && !n[|n| - 1].read
              && forall u :: u != author ==> NotificationsOf(s', u) == NotificationsOf(s, u)
  {
    var text := Or(c.text, "");
    NotifyPostAuthor(s, postId, c.authorId, Comment, "commented on your post", Text.Prefix(text, Text.CommentCap))
  }

  // ---------- mentions ----------

  /** The users the username lookup finds, one per mention, in mention order;
      mentions it finds nobody for are skipped. */
  function Resolve(names: seq<string>, lookup: string -> Option<Uid>): (r: seq<Uid>)
    ensures forall u :: u in r <==> exists n :: n in names && lookup(n) == Some(u)
    ensures |r| <= |names|
  {
    if |names| == 0 then []
    else
      assert names == [names[0]] + names[1..];
      var rest := Resolve(names[1..], lookup);
      match lookup(names[0])
      case Some(u) => [u] + rest
      case None => rest
  }

  /** The lookup's answer for each name, in name order. */
  function LookupAll(names: seq<string>, lookup: string -> Option<Uid>): (r: seq<Option<Uid>>)
    ensures |r| == |names|
    ensures forall i :: 0 <= i < |names| ==> r[i] == lookup(names[i])
  {
    seq(|names|, i requires 0 <= i < |names| => lookup(names[i]))
  }

  /** Resolution keeps duplicates: a user occurs in the result exactly as
      often as the lookup answers with them. */
  lemma {:induction false} ResolveCount(names: seq<string>, lookup: string -> Option<Uid>, u: Uid)
    ensures multiset(Resolve(names, lookup))[u] == multiset(LookupAll(names, lookup))[Some(u)]
  {
    if |names| > 0 {
      ResolveCount(names[1..], lookup, u);
      assert LookupAll(names, lookup) == [lookup(names[0])] + LookupAll(names[1..], lookup);
    }
  }

  function MentionPayload(c: CommentDoc, postId: PostId, text: string): Payload {
    Payload(Mention, c.authorId, c.authorName, Some(postId), None, "You were mentioned in a comment", text, None)
  }

  function MentionTargets(c: CommentDoc, lookup: string -> Option<Uid>): seq<Uid> {
    Resolve(Mentions.Mentions(Or(c.text, "")), lookup)
  }

  /** Creation of `posts/{postId}/comments/{commentId}`, notifying each user
      the comment mentions. */
  function OnCommentCreated(s: Store, postId: PostId, c: CommentDoc, lookup: string -> Option<Uid>): (s': Store)
    ensures s' == s.(notifications := s'.notifications)
    ensures forall u :: u !in MentionTargets(c, lookup) ==> NotificationsOf(s', u) == NotificationsOf(s, u)
  {
    NotifyAll(s, MentionTargets(c, lookup), MentionPayload(c, postId, Or(c.text, "")))
  }

  /** A user receives one mention notification, with the full text, per
      mention of a username the lookup maps to them, and none otherwise. */
  lemma MentionNotifications(s: Store, postId: PostId, c: CommentDoc, lookup: string -> Option<Uid>, u: Uid)
    ensures var text := Or(c.text, "");
            var k := multiset(LookupAll(Mentions.Mentions(text), lookup))[Some(u)];
            && NotificationsOf(OnCommentCreated(s, postId, c, lookup), u)
               == NotificationsOf(s, u) + Copies(Fresh(MentionPayload(c, postId, text)), k)
            && (k > 0 <==> exists n :: n in Mentions.Mentions(text) && lookup(n) == Some(u))
  {
    ResolveCount(Mentions.Mentions(Or(c.text, "")), lookup, u);
    NotifyAllCounts(s, MentionTargets(c, lookup), MentionPayload(c, postId, Or(c.text, "")), u);
  }

  /** Unlike the like and comment handlers, the mention handler has no
      self-exclusion: an author who mentions a username the lookup maps to
      themself is notified of their own comment. */
  lemma SelfMentionNotifiesAuthor(s: Store, postId: PostId, c: CommentDoc, lookup: string -> Option<Uid>, name: string)
    requires name in Mentions.Mentions(Or(c.text, "")) && lookup(name) == Some(c.authorId)
    ensures |NotificationsOf(OnCommentCreated(s, postId, c, lookup), c.authorId)| > |NotificationsOf(s, c.authorId)|
  {
    MentionNotifications(s, postId, c, lookup, c.authorId);
  }

  // ---------- posts ----------

  /** Creation of `posts/{postId}`. */
  function OnPostCreated(s: Store, post: Post): (s': Store)
    ensures s' == s.(counters := s'.counters)
    ensures CountOf(s', post.authorId, PostsCount) == CountOf(s, post.authorId, PostsCount) + 1
    ensures forall u, f :: (u != post.authorId || f != PostsCount) ==> Counter(s', u, f) == Counter(s, u, f)
  {
    IncUser(s, post.authorId, PostsCount, 1)
  }

  // ---------- chat ----------

  /** A chat message document's fields. */
  datatype MessageDoc = MessageDoc(senderId: Uid, text: Option<string>, media: Media.Media)

  /** The data block of a chat push (its `type` is always `chat`). */
  datatype ChatData = ChatData(chatId: ConvId, messageId: MessageId, senderId: Uid, senderName: string, preview: string)

  datatype Multicast = Multicast(tokens: seq<Token>, title: string, body: string, data: ChatData)

  /** What the transport reports for one multicast: a thrown error, or one
      response per token in token order. */
  datatype SendOutcome = SendFailed | Sent(responses: seq<Push.SendResponse>)

  /** The multicast the push step sends to a recipient: one to their
      non-empty stored tokens, or none when they have no such token. */
  function Issued(s: Store, target: Uid, title: string, body: string, data: ChatData): (m: Option<Multicast>)
    ensures m.Some? <==> exists t :: t in TokensOf(s, target) && t != ""
    ensures m.Some? ==>
              && m.value.title == title && m.value.body == body && m.value.data == data
              && forall t :: t in m.value.tokens <==> t in TokensOf(s, target) && t != ""
  {
    var live := Push.LiveTokens(TokensOf(s, target));
    if |live| == 0 then
      assert forall t :: t in TokensOf(s, target) && t != "" ==> t in live;
      None
    else
      assert live[0] in live;
      Some(Multicast(live, title, body, data))
  }

  /** A multicast together with the recipient it was sent for. */
  datatype Dispatch = Dispatch(to: Uid, message: Multicast)

  /** The push step for one recipient: send to their non-empty tokens, then
      drop the tokens the transport reports as permanently invalid. Only the
      recipient's token list can change, and only by losing entries. */
  function PushTo(s: Store, target: Uid, title: string, body: string, data: ChatData,
                  send: Multicast -> SendOutcome): (s': Store)
    ensures s' == s.(tokens := s'.tokens)
    ensures forall u :: u != target ==> TokensOf(s', u) == TokensOf(s, u)
    ensures forall t :: t in TokensOf(s', target) ==> t in TokensOf(s, target)
    ensures var live := Push.LiveTokens(TokensOf(s, target));
            var out := send(Multicast(live, title, body, data));
            && (|live| == 0 || out.SendFailed? ==> s' == s)
            && (|live| > 0 && out.Sent? && |out.responses| == |live| ==>
                  forall t :: t in TokensOf(s', target) <==>
                    t in TokensOf(s, target)
                    && !exists i :: 0 <= i < |live| && live[i] == t && Push.IsStale(out.responses[i]))
            && (|live| > 0 && out.Sent? && Push.TokensToRemove(live, out.responses) == [] ==> s' == s)
  {
    match Issued(s, target, title, body, data)
    case None => s
    case Some(m) =>
      match send(m)
      case SendFailed => s
      case Sent(responses) =>
        var drop := Push.TokensToRemove(m.tokens, responses);
        if |drop| == 0 then s
        else s.(tokens := s.tokens[target := Push.ArrayRemove(TokensOf(s, target), drop)])
  }

  /** No user gains a token: cleanup only ever removes. */
  ghost predicate TokensOnlyShrink(s: Store, s': Store) {
    forall u, t :: t in TokensOf(s', u) ==> t in TokensOf(s, u)
  }

  /** One pass of the fan-out loop: write the recipient's in-app
      notification, then push to them. */
  function Deliver(s: Store, target: Uid, note: Payload, title: string, body: string, data: ChatData,
                   send: Multicast -> SendOutcome): (s': Store)
    ensures s' == s.(notifications := s'.notifications, tokens := s'.tokens)
    ensures NotificationsOf(s', target) == NotificationsOf(s, target) + [Fresh(note)]
    ensures forall u :: u != target ==> NotificationsOf(s', u) == NotificationsOf(s, u)
    ensures forall u :: u != target ==> TokensOf(s', u) == TokensOf(s, u)
    ensures TokensOnlyShrink(s, s')
  {
    PushTo(AddNotification(s, target, note), target, title, body, data, send)
  }

  /** The fan-out loop: for each recipient in order, write the in-app
      notification and then push. */
  function FanOut(s: Store, targets: seq<Uid>, note: Payload, title: string, body: string, data: ChatData,
                  send: Multicast -> SendOutcome): (s': Store)
    ensures s' == s.(notifications := s'.notifications, tokens := s'.tokens)
    decreases |targets|
  {
    if |targets| == 0 then s
    else
      var s1 := Deliver(s, targets[0], note, title, body, data, send);
      FanOut(s1, targets[1..], note, title, body, data, send)
  }

  /** One step of the loop adds one notification for its recipient only. */
  lemma DeliverNotifies(s: Store, target: Uid, note: Payload, title: string, body: string, data: ChatData,
                        send: Multicast -> SendOutcome, u: Uid)
    ensures NotificationsOf(Deliver(s, target, note, title, body, data, send), u)
         == NotificationsOf(s, u) + Copies(Fresh(note), if u == target then 1 else 0)
  {
  }

  /** Every recipient gets one in-app notification per occurrence in the
      recipient list, whatever the transport does. */
  lemma {:induction false} FanOutNotifications(s: Store, targets: seq<Uid>, note: Payload, title: string,
                                               body: string, data: ChatData, send: Multicast -> SendOutcome, u: Uid)
    ensures NotificationsOf(FanOut(s, targets, note, title, body, data, send), u)
         == NotificationsOf(s, u) + Copies(Fresh(note), multiset(targets)[u])
    decreases |targets|
  {
    if |targets| > 0 {
      var s1 := Deliver(s, targets[0], note, title, body, data, send);
      var rest := targets[1..];
      var k0 := if u == targets[0] then 1 else 0;
      DeliverNotifies(s, targets[0], note, title, body, data, send, u);
      FanOutNotifications(s1, rest, note, title, body, data, send, u);
      CountCons(targets, u);
      CopiesChain(NotificationsOf(s, u), NotificationsOf(s1, u),
                  NotificationsOf(FanOut(s1, rest, note, title, body, data, send), u),
                  Fresh(note), k0, multiset(rest)[u]);
    }
  }

  /** Only recipients' token lists change, and only by losing entries. */
  lemma {:induction false} FanOutTokens(s: Store, targets: seq<Uid>, note: Payload, title: string,
                                        body: string, data: ChatData, send: Multicast -> SendOutcome)
    ensures forall u :: u !in targets ==> TokensOf(FanOut(s, targets, note, title, body, data, send), u) == TokensOf(s, u)
    ensures TokensOnlyShrink(s, FanOut(s, targets, note, title, body, data, send))
    decreases |targets|
  {
    if |targets| > 0 {
      var s1 := Deliver(s, targets[0], note, title, body, data, send);
      FanOutTokens(s1, targets[1..], note, title, body, data, send);
      assert forall u :: u !in targets ==> u !in targets[1..] && u != targets[0];
    }
  }

  /** The multicasts the fan-out loop sends, in order, each with the
      recipient it was sent for; a send reads the recipient's tokens as the
      earlier passes of the loop left them. */
  function FanOutSends(s: Store, targets: seq<Uid>, note: Payload, title: string, body: string, data: ChatData,
                       send: Multicast -> SendOutcome): (r: seq<Dispatch>)
    ensures |r| <= |targets|
    decreases |targets|
  {
    if |targets| == 0 then []
    else
      var here := match Issued(AddNotification(s, targets[0], note), targets[0], title, body, data)
                  case None => []
                  case Some(m) => [Dispatch(targets[0], m)];
      here + FanOutSends(Deliver(s, targets[0], note, title, body, data, send), targets[1..], note, title, body, data, send)
  }

  /** The recipient of each dispatch, in send order. */
  function Recipients(r: seq<Dispatch>): (us: seq<Uid>)
    ensures |us| == |r| && forall i :: 0 <= i < |r| ==> us[i] == r[i].to
  {
    seq(|r|, i requires 0 <= i < |r| => r[i].to)
  }

  /** The loop sends at most one multicast per listing of a recipient. */
  lemma {:induction false} FanOutSendsCount(s: Store, targets: seq<Uid>, note: Payload, title: string,
                                            body: string, data: ChatData, send: Multicast -> SendOutcome, u: Uid)
    ensures multiset(Recipients(FanOutSends(s, targets, note, title, body, data, send)))[u] <= multiset(targets)[u]
    decreases |targets|
  {
    if |targets| > 0 {
      var s1 := Deliver(s, targets[0], note, title, body, data, send);
      var rest := FanOutSends(s1, targets[1..], note, title, body, data, send);
      var here := match Issued(AddNotification(s, targets[0], note), targets[0], title, body, data)
                  case None => []
                  case Some(m) => [Dispatch(targets[0], m)];
      FanOutSendsCount(s1, targets[1..], note, title, body, data, send, u);
      CountCons(targets, u);
      RecipientsStep(here, rest, targets[0], u);
    }
  }

  /** Putting at most one dispatch, for `t`, in front of a send list adds at
      most one to the count of `t` and nothing to anyone else's. */
  lemma RecipientsStep(here: seq<Dispatch>, rest: seq<Dispatch>, t: Uid, u: Uid)
    requires here == [] || (|here| == 1 && here[0].to == t)
    ensures multiset(Recipients(here + rest))[u] <= (if u == t then 1 else 0) + multiset(Recipients(rest))[u]
  {
    assert Recipients(here + rest) == Recipients(here) + Recipients(rest);
  }

  /** Every multicast goes to a recipient, carries the loop's title, body
      and data, and is addressed to a non-empty set of that recipient's
      non-empty stored tokens. */
  lemma {:induction false} FanOutSendsSound(s: Store, targets: seq<Uid>, note: Payload, title: string,
                                            body: string, data: ChatData, send: Multicast -> SendOutcome)
    ensures forall d :: d in FanOutSends(s, targets, note, title, body, data, send) ==>
              && d.to in targets
              && d.message.title == title && d.message.body == body && d.message.data == data
              && d.message.tokens != []
              && forall t :: t in d.message.tokens ==> t != "" && t in TokensOf(s, d.to)
    decreases |targets|
  {
    if |targets| > 0 {
      var s1 := Deliver(s, targets[0], note, title, body, data, send);
      FanOutSendsSound(s1, targets[1..], note, title, body, data, send);
      assert forall u, t :: t in TokensOf(s1, u) ==> t in TokensOf(s, u);
    }
  }

  /** A recipient with a non-empty stored token is sent a multicast to all
      of its non-empty tokens: no earlier pass of the loop touches the
      tokens of a recipient still to come. */
  lemma {:induction false} FanOutSendsComplete(s: Store, targets: seq<Uid>, note: Payload, title: string,
                                               body: string, data: ChatData, send: Multicast -> SendOutcome, u: Uid)
    requires u in targets && Push.LiveTokens(TokensOf(s, u)) != []
    ensures Dispatch(u, Multicast(Push.LiveTokens(TokensOf(s, u)), title, body, data))
            in FanOutSends(s, targets, note, title, body, data, send)
    decreases |targets|
  {
    var rest := FanOutSends(Deliver(s, targets[0], note, title, body, data, send), targets[1..], note, title, body, data, send);
    if u != targets[0] {
      assert u in targets[1..];
      FanOutSendsComplete(Deliver(s, targets[0], note, title, body, data, send), targets[1..], note, title, body, data, send, u);
    }
  }

  /** The push step's effect on its recipient depends only on the
      recipient's own stored tokens. */
  lemma PushToLocal(a: Store, b: Store, target: Uid, title: string, body: string, data: ChatData,
                    send: Multicast -> SendOutcome)
    requires TokensOf(a, target) == TokensOf(b, target)
    ensures TokensOf(PushTo(a, target, title, body, data, send), target)
         == TokensOf(PushTo(b, target, title, body, data, send), target)
  {
  }

  /** A recipient listed once ends the loop with the tokens the push step
      alone leaves it: no other pass of the loop touches its tokens. */
  lemma {:induction false} FanOutTokensOf(s: Store, targets: seq<Uid>, note: Payload, title: string, body: string,
                                          data: ChatData, send: Multicast -> SendOutcome, u: Uid)
    requires multiset(targets)[u] == 1
    ensures TokensOf(FanOut(s, targets, note, title, body, data, send), u)
         == TokensOf(PushTo(s, u, title, body, data, send), u)
    decreases |targets|
  {
    var s1 := Deliver(s, targets[0], note, title, body, data, send);
    var rest := targets[1..];
    CountCons(targets, u);
    if u == targets[0] {
      assert multiset(rest)[u] == 0;
      FanOutTokens(s1, rest, note, title, body, data, send);
      PushToLocal(AddNotification(s, u, note), s, u, title, body, data, send);
    } else {
      FanOutTokensOf(s1, rest, note, title, body, data, send, u);
      PushToLocal(s1, s, u, title, body, data, send);
    }
  }

  function ChatRecipientsOf(s: Store, cid: ConvId, msg: MessageDoc): seq<Uid>
    requires cid in s.conversations
  {
    Push.ChatRecipients(s.conversations[cid].members.GetOr([]), msg.senderId)
  }

  function ChatPreviewOf(msg: MessageDoc): string {
    Text.ChatPreview(Or(msg.text, ""), Media.AttachmentCount(msg.media))
  }

  function ChatDataOf(s: Store, cid: ConvId, mid: MessageId, msg: MessageDoc): ChatData {
    ChatData(cid, mid, msg.senderId, SenderName(s, msg.senderId), ChatPreviewOf(msg))
  }

  function ChatNote(s: Store, cid: ConvId, mid: MessageId, msg: MessageDoc): Payload {
    var name := SenderName(s, msg.senderId);
    Payload(Chat, msg.senderId, name, None, None, name, ChatPreviewOf(msg), Some(ChatRef(cid, mid)))
  }

  /** Creation of `conversations/{cid}/messages/{mid}`: a no-op for a missing
      conversation; otherwise every recipient is notified and pushed to. */
  function OnChatMessageCreated(s: Store, cid: ConvId, mid: MessageId, msg: MessageDoc,
                                send: Multicast -> SendOutcome): (s': Store)
    ensures s' == s.(notifications := s'.notifications, tokens := s'.tokens)
    ensures cid !in s.conversations ==> s' == s
    ensures NotificationsOf(s', msg.senderId) == NotificationsOf(s, msg.senderId)
    ensures TokensOnlyShrink(s, s')
  {
    if cid !in s.conversations then s
    else
      var name := SenderName(s, msg.senderId);
      var body := Text.PushBody(ChatPreviewOf(msg));
      var data := ChatDataOf(s, cid, mid, msg);
      var targets := ChatRecipientsOf(s, cid, msg);
      var note := ChatNote(s, cid, mid, msg);
      FanOutTokens(s, targets, note, name, body, data, send);
      FanOutNotifications(s, targets, note, name, body, data, send, msg.senderId);
      FanOut(s, targets, note, name, body, data, send)
  }

  /** The multicasts the chat handler sends, each with its recipient: none
      for a missing conversation, otherwise those of its fan-out loop. */
  function ChatSends(s: Store, cid: ConvId, mid: MessageId, msg: MessageDoc,
                     send: Multicast -> SendOutcome): (r: seq<Dispatch>)
    ensures cid !in s.conversations ==> r == []
  {
    if cid !in s.conversations then []
    else
      FanOutSends(s, ChatRecipientsOf(s, cid, msg), ChatNote(s, cid, mid, msg), SenderName(s, msg.senderId),
                  Text.PushBody(ChatPreviewOf(msg)), ChatDataOf(s, cid, mid, msg), send)
  }

  /** Pushes go only to truthy members other than the sender, titled with
      the sender's name, with the preview (or the new-message placeholder)
      as body, and to a non-empty set of the member's non-empty tokens;
      every such member holding a non-empty token is pushed to all of them;
      and nobody is pushed to more often than they are listed. */
  lemma ChatPushes(s: Store, cid: ConvId, mid: MessageId, msg: MessageDoc, send: Multicast -> SendOutcome)
    ensures forall d :: d in ChatSends(s, cid, mid, msg, send) ==>
              && cid in s.conversations
              && d.to != "" && d.to != msg.senderId
              && Some(d.to) in s.conversations[cid].members.GetOr([])
              && d.message.title == SenderName(s, msg.senderId)
              && d.message.body == Text.PushBody(ChatPreviewOf(msg))
              && d.message.data == ChatDataOf(s, cid, mid, msg)
              && d.message.tokens != []
              && forall t :: t in d.message.tokens ==> t != "" && t in TokensOf(s, d.to)
    ensures cid in s.conversations ==>
              forall u :: u != "" && u != msg.senderId && Some(u) in s.conversations[cid].members.GetOr([])
                          && Push.LiveTokens(TokensOf(s, u)) != [] ==>
                Dispatch(u, Multicast(Push.LiveTokens(TokensOf(s, u)), SenderName(s, msg.senderId),
                                      Text.PushBody(ChatPreviewOf(msg)), ChatDataOf(s, cid, mid, msg)))
                in ChatSends(s, cid, mid, msg, send)
    ensures cid in s.conversations ==>
              forall u :: u != "" && u != msg.senderId ==>
                var members := s.conversations[cid].members.GetOr([]);
                var n := multiset(Recipients(ChatSends(s, cid, mid, msg, send)))[u];
                && n <= multiset(members)[Some(u)]
                && (multiset(members)[Some(u)] == 1 && Push.LiveTokens(TokensOf(s, u)) != [] ==> n == 1)
  {
    if cid in s.conversations {
      forall u | u != "" && u != msg.senderId
        ensures var members := s.conversations[cid].members.GetOr([]);
                var n := multiset(Recipients(ChatSends(s, cid, mid, msg, send)))[u];
                && n <= multiset(members)[Some(u)]
                && (multiset(members)[Some(u)] == 1 && Push.LiveTokens(TokensOf(s, u)) != [] ==> n == 1)
      {
        ChatPushCount(s, cid, mid, msg, send, u);
      }
      var targets := ChatRecipientsOf(s, cid, msg);
      var note := ChatNote(s, cid, mid, msg);
      var name := SenderName(s, msg.senderId);
      var body := Text.PushBody(ChatPreviewOf(msg));
      var data := ChatDataOf(s, cid, mid, msg);
      FanOutSendsSound(s, targets, note, name, body, data, send);
      forall u | u != "" && u != msg.senderId && Some(u) in s.conversations[cid].members.GetOr([])
                 && Push.LiveTokens(TokensOf(s, u)) != []
        ensures Dispatch(u, Multicast(Push.LiveTokens(TokensOf(s, u)), name, body, data))
                in ChatSends(s, cid, mid, msg, send)
      {
        FanOutSendsComplete(s, targets, note, name, body, data, send, u);
      }
    }
  }

  /** A user is pushed to at most once per listing as a truthy member other
      than the sender, and a member listed once who holds a non-empty token
      is pushed to exactly once. */
  lemma ChatPushCount(s: Store, cid: ConvId, mid: MessageId, msg: MessageDoc, send: Multicast -> SendOutcome, u: Uid)
    requires cid in s.conversations && u != "" && u != msg.senderId
    ensures var members := s.conversations[cid].members.GetOr([]);
            var n := multiset(Recipients(ChatSends(s, cid, mid, msg, send)))[u];
            && n <= multiset(members)[Some(u)]
            && (multiset(members)[Some(u)] == 1 && Push.LiveTokens(TokensOf(s, u)) != [] ==> n == 1)
  {
    var members := s.conversations[cid].members.GetOr([]);
    var targets := ChatRecipientsOf(s, cid, msg);
    var note := ChatNote(s, cid, mid, msg);
    var name := SenderName(s, msg.senderId);
    var body := Text.PushBody(ChatPreviewOf(msg));
    var data := ChatDataOf(s, cid, mid, msg);
    var sends := ChatSends(s, cid, mid, msg, send);
    Push.ChatRecipientsCount(members, msg.senderId, u);
    FanOutSendsCount(s, targets, note, name, body, data, send, u);
    if multiset(members)[Some(u)] == 1 && Push.LiveTokens(TokensOf(s, u)) != [] {
      assert u in targets;
      FanOutSendsComplete(s, targets, note, name, body, data, send, u);
      var i :| 0 <= i < |sends| && sends[i].to == u;
      assert Recipients(sends)[i] == u;
    }
  }

  /** Token cleanup for a member listed once: when the member has no
      non-empty token or the send throws, their tokens stay as they are;
      when the response list lines up with the tokens sent, they keep
      exactly the stored tokens not reported as permanently invalid. */
  lemma ChatTokens(s: Store, cid: ConvId, mid: MessageId, msg: MessageDoc, send: Multicast -> SendOutcome, u: Uid)
    requires cid in s.conversations && u != "" && u != msg.senderId
    requires multiset(s.conversations[cid].members.GetOr([]))[Some(u)] == 1
    ensures var s' := OnChatMessageCreated(s, cid, mid, msg, send);
            var live := Push.LiveTokens(TokensOf(s, u));
            var out := send(Multicast(live, SenderName(s, msg.senderId), Text.PushBody(ChatPreviewOf(msg)),
                                      ChatDataOf(s, cid, mid, msg)));
            && (|live| == 0 || out.SendFailed? ==> TokensOf(s', u) == TokensOf(s, u))
            && (|live| > 0 && out.Sent? && |out.responses| == |live| ==>
                  forall t :: t in TokensOf(s', u) <==>
                    t in TokensOf(s, u)
                    && !exists i :: 0 <= i < |live| && live[i] == t && Push.IsStale(out.responses[i]))
  {
    var targets := ChatRecipientsOf(s, cid, msg);
    var name := SenderName(s, msg.senderId);
    var body := Text.PushBody(ChatPreviewOf(msg));
    var data := ChatDataOf(s, cid, mid, msg);
    Push.ChatRecipientsCount(s.conversations[cid].members.GetOr([]), msg.senderId, u);
    FanOutTokensOf(s, targets, ChatNote(s, cid, mid, msg), name, body, data, send, u);
    var p := PushTo(s, u, name, body, data, send);
    assert TokensOf(OnChatMessageCreated(s, cid, mid, msg, send), u) == TokensOf(p, u);
  }

  /** Exactly the truthy members other than the sender are notified, once per
      listing, with the preview as body. */
  lemma ChatNotifications(s: Store, cid: ConvId, mid: MessageId, msg: MessageDoc,
                          send: Multicast -> SendOutcome, u: Uid)
    requires cid in s.conversations
    ensures var members := s.conversations[cid].members.GetOr([]);
            var k := multiset(ChatRecipientsOf(s, cid, msg))[u];
            && NotificationsOf(OnChatMessageCreated(s, cid, mid, msg, send), u)
               == NotificationsOf(s, u) + Copies(Fresh(ChatNote(s, cid, mid, msg)), k)
            && (k > 0 <==> u != "" && u != msg.senderId && Some(u) in members)
            && (u != "" && u != msg.senderId ==> k == multiset(members)[Some(u)])
  {
    FanOutNotifications(s, ChatRecipientsOf(s, cid, msg), ChatNote(s, cid, mid, msg), SenderName(s, msg.senderId),
                        Text.PushBody(ChatPreviewOf(msg)), ChatDataOf(s, cid, mid, msg), send, u);
    if u != "" && u != msg.senderId {
      Push.ChatRecipientsCount(s.conversations[cid].members.GetOr([]), msg.senderId, u);
    }
  }
}

=== FILE: media.dfy ===
/** The `media` field of a post or a chat message, which the client writes
    either as a list of attachments or as a single value. */
module Media {
  import opened Basics

  datatype Media =
    | Absent                          // missing, null or another falsy value
    | Items(urls: seq<Option<string>>) // a list; each element's `url`, when it has one
    | Scalar(v: string)               // a string that is not a list; other scalars are not modelled

  /** The thumbnail shown with a like or comment notification: the first
      list element's url, a scalar value as it is, and the empty string
      otherwise. */
  function ThumbUrl(m: Media): (r: string)
    ensures m.Absent? ==> r == ""
    ensures m.Scalar? ==> r == m.v
    ensures m.Items? && |m.urls| > 0 && m.urls[0].Some? ==> r == m.urls[0].value
    ensures m.Items? ==> r == "" || (|m.urls| > 0 && m.urls[0] == Some(r))
  {
    match m
    case Items(urls) => if |urls| > 0 then Or(urls[0], "") else ""
    case Scalar(v) => Or(Some(v), "")
    case Absent => ""
  }

  /** The number of attachments of a chat message: a non-list counts as none. */
  function AttachmentCount(m: Media): (n: nat)
    ensures m.Items? ==> n == |m.urls|
    ensures !m.Items? ==> n == 0
  {
    if m.Items? then |m.urls| else 0
  }
}

=== FILE: mentions.dfy ===
/** The `@username` scanner: the global regular expression `@([a-zA-Z0-9_]+)`
    run over a comment's text, collecting the first capture group of every
    match. */
module Mentions {

  /** The character class `[a-zA-Z0-9_]`. */
  predicate IsWordChar(c: char) {
    ('a' <= c <= 'z') || ('A' <= c <= 'Z') || ('0' <= c <= '9') || c == '_'
  }

  /** The end of the longest run of word characters in `s` starting at `i`:
      the greedy `+` of the expression. */
  function RunEnd(s: string, i: nat): (j: nat)
    requires i <= |s|
    ensures i <= j <= |s|
    ensures forall k :: i <= k < j ==> IsWordChar(s[k])
    ensures j == |s| || !IsWordChar(s[j])
    decreases |s| - i
  {
    if i < |s| && IsWordChar(s[i]) then RunEnd(s, i + 1) else i
  }

  /** A match of the expression starts at `i`: an `@` followed by at least
      one word character. */
  predicate MentionAt(s: string, i: nat) {
    i + 1 < |s| && s[i] == '@' && IsWordChar(s[i + 1])
  }

  /** The captured username of the match starting at `i`. */
  function NameAt(s: string, i: nat): string
    requires MentionAt(s, i)
  {
    s[i + 1..RunEnd(s, i + 1)]
  }

  /** Reference meaning: scanning left to right from `i`, every `@` followed
      by a word character contributes the maximal word run after it. */
  function MentionsFrom(s: string, i: nat): seq<string>
    requires i <= |s|
    decreases |s| - i
  {
    if i == |s| then []
    else (if MentionAt(s, i) then [NameAt(s, i)] else []) + MentionsFrom(s, i + 1)
  }

  function Mentions(s: string): seq<string> {
    MentionsFrom(s, 0)
  }

  /** A run of word characters contains no `@`, so no match starts inside it. */
  lemma {:induction false} SkipRun(s: string, i: nat, j: nat)
    requires i <= j <= |s|
    requires forall k :: i <= k < j ==> IsWordChar(s[k])
    ensures MentionsFrom(s, i) == MentionsFrom(s, j)
    decreases j - i
  {
    if i < j {
      assert !MentionAt(s, i);
      SkipRun(s, i + 1, j);
    }
  }

  /** A match at `i` contributes its capture, and the scan resumes after it. */
  lemma MatchStep(s: string, i: nat)
    requires MentionAt(s, i)
    ensures MentionsFrom(s, i) == [NameAt(s, i)] + MentionsFrom(s, RunEnd(s, i + 1))
  {
    SkipRun(s, i + 1, RunEnd(s, i + 1));
  }

  /** The greedy `+`: advance over word characters from `start`. */
  method ScanRun(text: string, start: nat) returns (end: nat)
    requires start <= |text|
    ensures end == RunEnd(text, start)
  {
    end := start;
    while end < |text| && IsWordChar(text[end])
      invariant start <= end <= |text|
      invariant forall k :: start <= k < end ==> IsWordChar(text[k])
    {
      end := end + 1;
    }
    assert end == RunEnd(text, start);
  }

  /** The `re.exec` loop: search from `lastIndex` for the next match, record
      its capture, and resume the search where the match ended. */
  method ExtractMentions(text: string) returns (mentions: seq<string>)
    ensures mentions == Mentions(text)
  {
    mentions := [];
    var lastIndex := 0;
    while lastIndex < |text|
      invariant lastIndex <= |text|
      invariant mentions + MentionsFrom(text, lastIndex) == Mentions(text)
    {
      if MentionAt(text, lastIndex) {
        var end := ScanRun(text, lastIndex + 1);
        MatchStep(text, lastIndex);
        var name := text[lastIndex + 1..end];
        assert mentions + MentionsFrom(text, lastIndex) == (mentions + [name]) + MentionsFrom(text, end);
        mentions := mentions + [name];
        lastIndex := end;
      } else {
        lastIndex := lastIndex + 1;
      }
    }
  }

  /** Every result is a non-empty run of word characters. */
  lemma {:induction false} MentionsFromWords(s: string, i: nat)
    requires i <= |s|
    ensures forall m :: m in MentionsFrom(s, i) ==> |m| > 0 && forall c :: c in m ==> IsWordChar(c)
    decreases |s| - i
  {
    if i < |s| {
      MentionsFromWords(s, i + 1);
      if MentionAt(s, i) {
        var m := NameAt(s, i);
        forall c | c in m
          ensures IsWordChar(c)
        {
          var k :| 0 <= k < |m| && m[k] == c;
          assert m[k] == s[i + 1 + k];
        }
      }
    }
  }

  /** Each result is the capture of a match at or after `i`. */
  lemma {:induction false} MentionsFromCaptures(s: string, i: nat)
    requires i <= |s|
    ensures forall m :: m in MentionsFrom(s, i) ==> exists p :: i <= p < |s| && MentionAt(s, p) && NameAt(s, p) == m
    decreases |s| - i
  {
    if i < |s| {
      MentionsFromCaptures(s, i + 1);
    }
  }

  /** Each match at or after `i` contributes its capture. */
  lemma {:induction false} MentionsFromComplete(s: string, i: nat)
    requires i <= |s|
    ensures forall p :: i <= p < |s| && MentionAt(s, p) ==> NameAt(s, p) in MentionsFrom(s, i)
    decreases |s| - i
  {
    if i < |s| {
      MentionsFromComplete(s, i + 1);
    }
  }

  /** Every result is a non-empty run of word characters, and both directions
      hold: each result is the capture of some match, and each match's capture
      is among the results. */
  lemma MentionsAreUsernames(s: string)
    ensures forall m :: m in Mentions(s) ==> |m| > 0 && forall c :: c in m ==> IsWordChar(c)
    ensures forall m :: m in Mentions(s) ==> exists p :: MentionAt(s, p) && NameAt(s, p) == m
    ensures forall p :: MentionAt(s, p) ==> NameAt(s, p) in Mentions(s)
  {
    MentionsFromWords(s, 0);
    MentionsFromCaptures(s, 0);
    MentionsFromComplete(s, 0);
  }

  /** Text without an `@` (the empty text included) has no mentions. */
  lemma {:induction false} NoAtSignNoMentions(s: string, i: nat)
    requires i <= |s|
    requires '@' !in s[i..]
    ensures MentionsFrom(s, i) == []
    decreases |s| - i
  {
    if i < |s| {
      assert s[i] in s[i..];
      assert s[i..] == [s[i]] + s[i + 1..];
      NoAtSignNoMentions(s, i + 1);
    }
  }

  /** Order of appearance is kept and repeated names are not merged. */
  lemma MentionsExample()
    ensures Mentions("hi @a @b @a") == ["a", "b", "a"]
  {
    var s := "hi @a @b @a";
    assert RunEnd(s, 10) == 11;
    assert RunEnd(s, 7) == 8;
    assert RunEnd(s, 4) == 5;
    assert MentionsFrom(s, 11) == [];
    assert MentionsFrom(s, 10) == [];
    assert MentionAt(s, 9) && NameAt(s, 9) == "a";
    assert MentionsFrom(s, 9) == ["a"];
    assert MentionsFrom(s, 8) == ["a"];
    assert MentionsFrom(s, 7) == ["a"];
    assert MentionAt(s, 6) && NameAt(s, 6) == "b";
    assert MentionsFrom(s, 6) == ["b", "a"];
    assert MentionsFrom(s, 5) == ["b", "a"];
    assert MentionsFrom(s, 4) == ["b", "a"];
    assert MentionAt(s, 3) && NameAt(s, 3) == "a";
    assert MentionsFrom(s, 3) == ["a", "b", "a"];
    assert MentionsFrom(s, 2) == ["a", "b", "a"];
    assert MentionsFrom(s, 1) == ["a", "b", "a"];
  }
}

=== FILE: push.dfy ===
/** The pure parts of the chat push fan-out: who receives a message, which
    tokens a multicast is sent to, and which tokens are dropped afterwards. */
module Push {
  import opened Basics

  const NotRegistered := "messaging/registration-token-not-registered"
  const InvalidRegistration := "messaging/invalid-registration-token"

  /** The per-token outcome a multicast send reports. */
  datatype SendResponse = Delivered | Rejected(code: Option<string>)

  /** The token will never work again: one of the two permanent error codes. */
  predicate IsStale(r: SendResponse)
    ensures IsStale(r) ==> r.Rejected? && r.code.Some?
    ensures r == Rejected(Some(NotRegistered)) ==> IsStale(r)
    ensures r == Rejected(Some(InvalidRegistration)) ==> IsStale(r)
    ensures r.Rejected? && r.code.Some? && r.code.value != NotRegistered && r.code.value != InvalidRegistration
            ==> !IsStale(r)
  {
    r.Rejected? && (r.code == Some(NotRegistered) || r.code == Some(InvalidRegistration))
  }

  /** Members of a conversation who receive a message: every truthy member id
      other than the sender, in member order, repeats included. */
  function ChatRecipients(members: seq<Option<Uid>>, sender: Uid): (r: seq<Uid>)
    ensures sender !in r && "" !in r
    ensures forall u :: u in r <==> u != "" && u != sender && Some(u) in members
    ensures |r| <= |members|
  {
    if |members| == 0 then []
    else
      var rest := ChatRecipients(members[1..], sender);
      assert members == [members[0]] + members[1..];
      if Truthy(members[0]) && members[0].value != sender then [members[0].value] + rest else rest
  }

  /** Each eligible member receives the message as often as it is listed. */
  lemma {:induction false} ChatRecipientsCount(members: seq<Option<Uid>>, sender: Uid, u: Uid)
    requires u != "" && u != sender
    ensures multiset(ChatRecipients(members, sender))[u] == multiset(members)[Some(u)]
  {
    if |members| > 0 {
      ChatRecipientsCount(members[1..], sender, u);
      assert members == [members[0]] + members[1..];
      var rest := ChatRecipients(members[1..], sender);
      if Truthy(members[0]) && members[0].value != sender {
        assert ChatRecipients(members, sender) == [members[0].value] + rest;
      }
    }
  }

  /** Number of failed sends in a multicast result. */
  function FailureCount(rs: seq<SendResponse>): (n: nat)
    ensures n <= |rs|
    ensures n == 0 <==> forall i :: 0 <= i < |rs| ==> rs[i].Delivered?
  {
    if |rs| == 0 then 0
    else (if rs[0].Rejected? then 1 else 0) + FailureCount(rs[1..])
  }

  /** The tokens whose response reports a permanent error, in token order. */
  function StaleTokens(tokens: seq<Token>, rs: seq<SendResponse>): (r: seq<Token>)
    requires |rs| == |tokens|
    ensures forall t :: t in r <==> exists i :: 0 <= i < |tokens| && tokens[i] == t && IsStale(rs[i])
    ensures |r| <= |tokens|
  {
    if |tokens| == 0 then []
    else
      var rest := StaleTokens(tokens[1..], rs[1..]);
      assert forall t :: t in rest <==> exists i :: 1 <= i < |tokens| && tokens[i] == t && IsStale(rs[i]) by {
        forall t
          ensures t in rest <==> exists i :: 1 <= i < |tokens| && tokens[i] == t && IsStale(rs[i])
        {
          if t in rest {
            var j :| 0 <= j < |tokens| - 1 && tokens[1..][j] == t && IsStale(rs[1..][j]);
            assert tokens[j + 1] == t && IsStale(rs[j + 1]);
          }
          if exists i :: 1 <= i < |tokens| && tokens[i] == t && IsStale(rs[i]) {
            var i :| 1 <= i < |tokens| && tokens[i] == t && IsStale(rs[i]);
            assert tokens[1..][i - 1] == t && IsStale(rs[1..][i - 1]);
          }
        }
      }
      if IsStale(rs[0]) then [tokens[0]] + rest else rest
  }

  /** Removal of every instance of each of `drop` from an array field, as a
      Firestore array-remove update does. */
  function ArrayRemove(stored: seq<Token>, drop: seq<Token>): (r: seq<Token>)
    ensures forall t :: t in r <==> t in stored && t !in drop
    ensures |r| <= |stored|
    ensures drop == [] ==> r == stored
  {
    if |stored| == 0 then []
    else
      assert stored == [stored[0]] + stored[1..];
      (if stored[0] in drop then [] else [stored[0]]) + ArrayRemove(stored[1..], drop)
  }

  /** Every instance of a dropped token goes, and every other token stays
      as many times as it was stored. */
  lemma {:induction false} ArrayRemoveCount(stored: seq<Token>, drop: seq<Token>, t: Token)
    ensures multiset(ArrayRemove(stored, drop))[t] == if t in drop then 0 else multiset(stored)[t]
  {
    if |stored| > 0 {
      ArrayRemoveCount(stored[1..], drop, t);
      assert stored == [stored[0]] + stored[1..];
    }
  }

  /** `fcmTokens.filter(Boolean)`: the stored tokens that are not empty. */
  function LiveTokens(stored: seq<Token>): (r: seq<Token>)
    ensures forall t :: t in r <==> t in stored && t != ""
  {
    ArrayRemove(stored, [""])
  }

  /** The tokens a multicast result asks to drop, or none: cleanup runs only
      when some send failed and the result lines up with the tokens. */
  function TokensToRemove(tokens: seq<Token>, rs: seq<SendResponse>): (r: seq<Token>)
    ensures |rs| == |tokens| ==> forall t :: t in r <==> exists i :: 0 <= i < |tokens| && tokens[i] == t && IsStale(rs[i])
    ensures |rs| != |tokens| ==> r == []
  {
    if |rs| != |tokens| || FailureCount(rs) == 0 then [] else StaleTokens(tokens, rs)
  }

  /** Two tokens, one reported as no longer registered: only that one goes. */
  lemma CleanupExample(good: Token, bad: Token)
    requires good != bad
    ensures ArrayRemove([good, bad], TokensToRemove([good, bad], [Delivered, Rejected(Some(NotRegistered))])) == [good]
  {
    var drop := TokensToRemove([good, bad], [Delivered, Rejected(Some(NotRegistered))]);
    assert bad in drop by {
      assert [good, bad][1] == bad;
    }
    assert good !in drop;
    var r := ArrayRemove([good, bad], drop);
    assert [good, bad][1..] == [bad];
    assert r == [good] + ArrayRemove([bad], drop);
  }
}

=== FILE: scenarios.dfy ===
/** Two end-to-end runs of the handlers, stated for every store in which
    their starting documents exist. */
module Scenarios {
  import opened Basics
  import opened Store
  import opened Handlers
  import Media
  import Push
  import Text

  /** A post of `author` without media, liked by another user: the author
      gets one unread like from the liker with an empty thumbnail, and the
      liker gets nothing. */
  lemma LikeOfPostWithoutMedia(s: Store, postId: PostId, author: Uid, liker: Uid)
    requires postId in s.posts && s.posts[postId] == Post(author, Media.Absent)
    requires author != liker
    ensures var s' := OnPostLiked(s, postId, liker);
            && NotificationsOf(s', author) == NotificationsOf(s, author)
               + [Notification(Payload(Like, liker, DisplayName(s, liker), Some(postId), Some(""),
                                       "liked your post", "", None), false, ServerTime)]
            && NotificationsOf(s', liker) == NotificationsOf(s, liker)
  {
  }

  /** Conversation members [a, b]; `a` sends "hello" without media: `b` gets
      one chat notification whose body is "hello", `a` gets none, no user
      other than `b` can lose a token, and the only push, titled with `a`'s
      name and with body "hello", goes to `b`'s non-empty tokens when `b`
      has any. */
  lemma HelloBetweenTwo(s: Store, cid: ConvId, mid: MessageId, a: Uid, b: Uid,
                        send: Multicast -> SendOutcome)
    requires cid in s.conversations && s.conversations[cid] == Conversation(Some([Some(a), Some(b)]))
    requires a != b && a != "" && b != ""
    ensures var msg := MessageDoc(a, Some("hello"), Media.Absent);
            var s' := OnChatMessageCreated(s, cid, mid, msg, send);
            && |NotificationsOf(s', b)| == |NotificationsOf(s, b)| + 1
            && NotificationsOf(s', b)[|NotificationsOf(s, b)|].payload.kind == Chat
            && NotificationsOf(s', b)[|NotificationsOf(s, b)|].payload.body == "hello"
            && NotificationsOf(s', b)[|NotificationsOf(s, b)|].payload.fromUid == a
            && NotificationsOf(s', a) == NotificationsOf(s, a)
            && (forall u :: u != b ==> TokensOf(s', u) == TokensOf(s, u))
            && ChatSends(s, cid, mid, msg, send)
               == if Push.LiveTokens(TokensOf(s, b)) == [] then []
                  else [Dispatch(b, Multicast(Push.LiveTokens(TokensOf(s, b)), SenderName(s, a), "hello",
                                              ChatData(cid, mid, a, SenderName(s, a), "hello")))]
  {
    var msg := MessageDoc(a, Some("hello"), Media.Absent);
    HelloTargets(s, cid, a, b);
    var targets := ChatRecipientsOf(s, cid, msg);
    HelloNotifies(s, cid, mid, a, b, send);
    var name := SenderName(s, a);
    var preview := ChatPreviewOf(msg);
    var note := ChatNote(s, cid, mid, msg);
    var data := ChatDataOf(s, cid, mid, msg);
    FanOutTokens(s, targets, note, name, Text.PushBody(preview), data, send);
    HelloSends(s, cid, mid, a, b, send);
  }

  /** In that run `b` gets exactly the chat notification and `a` nothing. */
  lemma HelloNotifies(s: Store, cid: ConvId, mid: MessageId, a: Uid, b: Uid, send: Multicast -> SendOutcome)
    requires cid in s.conversations && s.conversations[cid] == Conversation(Some([Some(a), Some(b)]))
    requires a != b && a != "" && b != ""
    ensures var msg := MessageDoc(a, Some("hello"), Media.Absent);
            var s' := OnChatMessageCreated(s, cid, mid, msg, send);
            && NotificationsOf(s', b) == NotificationsOf(s, b) + [Fresh(ChatNote(s, cid, mid, msg))]
            && NotificationsOf(s', a) == NotificationsOf(s, a)
  {
    var msg := MessageDoc(a, Some("hello"), Media.Absent);
    HelloTargets(s, cid, a, b);
    assert multiset(ChatRecipientsOf(s, cid, msg))[b] == 1;
    ChatNotifications(s, cid, mid, msg, send, b);
  }

  /** The send list of that run: one multicast, to `b`'s non-empty tokens,
      or none when `b` has no such token. */
  lemma HelloSends(s: Store, cid: ConvId, mid: MessageId, a: Uid, b: Uid, send: Multicast -> SendOutcome)
    requires cid in s.conversations && s.conversations[cid] == Conversation(Some([Some(a), Some(b)]))
    requires a != b && a != "" && b != ""
    ensures ChatSends(s, cid, mid, MessageDoc(a, Some("hello"), Media.Absent), send)
            == if Push.LiveTokens(TokensOf(s, b)) == [] then []
               else [Dispatch(b, Multicast(Push.LiveTokens(TokensOf(s, b)), SenderName(s, a), "hello",
                                           ChatData(cid, mid, a, SenderName(s, a), "hello")))]
  {
    var msg := MessageDoc(a, Some("hello"), Media.Absent);
    HelloTargets(s, cid, a, b);
    var note := ChatNote(s, cid, mid, msg);
    var data := ChatDataOf(s, cid, mid, msg);
    var s1 := Deliver(s, b, note, SenderName(s, a), "hello", data, send);
    assert FanOutSends(s1, [], note, SenderName(s, a), "hello", data, send) == [];
  }

  /** In that conversation `b` is the only recipient of `a`'s "hello", and
      the preview is the text itself. */
  lemma HelloTargets(s: Store, cid: ConvId, a: Uid, b: Uid)
    requires cid in s.conversations && s.conversations[cid] == Conversation(Some([Some(a), Some(b)]))
    requires a != b && a != "" && b != ""
    ensures ChatRecipientsOf(s, cid, MessageDoc(a, Some("hello"), Media.Absent)) == [b]
    ensures ChatPreviewOf(MessageDoc(a, Some("hello"), Media.Absent)) == "hello"
  {
    var members := [Some(a), Some(b)];
    assert members[1..] == [Some(b)];
    assert Push.ChatRecipients(members[1..][1..], a) == [];
  }
}

=== FILE: store.dfy ===
/** The document store as an immutable value, and the two primitives every
    handler is built from: the counter increment and the notification append. */
module Store {
  import opened Basics
  import Media

  const FollowersCount := "followersCount"
  const FollowingCount := "followingCount"
  const PostsCount := "postsCount"

  /** Profile fields of a `users/{uid}` document. */
  datatype Profile = Profile(displayName: Option<string>, name: Option<string>)

  /** A document id under a user: `users/{owner}/<collection>/{other}`. */
  datatype Link = Link(owner: Uid, other: Uid)

  datatype FollowRequest = FollowRequest(status: Option<string>)

  datatype Post = Post(authorId: Uid, media: Media.Media)

  /** `members` is None when the field is not a list. */
  datatype Conversation = Conversation(members: Option<seq<Option<Uid>>>)

  datatype Kind = Follow | Mention | Like | Comment | Chat

  datatype ChatRef = ChatRef(chatId: ConvId, messageId: MessageId)

  /** The fields a handler passes to the notification writer. */
  datatype Payload = Payload(
    kind: Kind,
    fromUid: Uid,
    fromName: string,
    postId: Option<PostId>,
    postThumbUrl: Option<string>,
    title: string,
    body: string,
    extra: Option<ChatRef>)

  /** The server-assigned creation time; its value is not modelled. */
  datatype Timestamp = ServerTime

  datatype Notification = Notification(payload: Payload, read: bool, createdAt: Timestamp)

  /** Every collection the handlers read or write. The fields of a
      `users/{uid}` document are split over `profiles`, `counters` and
      `tokens`; a uid missing from one of them lacks those fields. */
  datatype Store = Store(
    profiles: map<Uid, Profile>,
    counters: map<Uid, map<string, int>>,
    tokens: map<Uid, seq<Token>>,
    followers: set<Link>,
    following: set<Link>,
    requests: map<Link, FollowRequest>,
    notifications: map<Uid, seq<Notification>>,
    posts: map<PostId, Post>,
    conversations: map<ConvId, Conversation>)

  /** A counter field as stored, if present. */
  function Counter(s: Store, uid: Uid, field: string): Option<int> {
    if uid in s.counters && field in s.counters[uid] then Some(s.counters[uid][field]) else None
  }

  /** A counter field's value, an absent field counting as zero. */
  function CountOf(s: Store, uid: Uid, field: string): int {
    Counter(s, uid, field).GetOr(0)
  }

  function NotificationsOf(s: Store, uid: Uid): seq<Notification> {
    if uid in s.notifications then s.notifications[uid] else []
  }

  function TokensOf(s: Store, uid: Uid): seq<Token> {
    if uid in s.tokens then s.tokens[uid] else []
  }

  /** The merge-increment of one counter field: an absent field becomes
      `delta`, a present one grows by `delta`, and nothing else changes. */
  function IncUser(s: Store, uid: Uid, field: string, delta: int): (s': Store)
    ensures s' == s.(counters := s'.counters)
    ensures Counter(s', uid, field).Some?
    ensures CountOf(s', uid, field) == CountOf(s, uid, field) + delta
    ensures forall u, f :: (u != uid || f != field) ==> Counter(s', u, f) == Counter(s, u, f)
  {
    s.(counters := Bump(s.counters, uid, field, delta))
  }

  /** The increment on the counter table alone. */
  function Bump(c: map<Uid, map<string, int>>, uid: Uid, field: string, delta: int): map<Uid, map<string, int>> {
    var fields := if uid in c then c[uid] else map[];
    c[uid := fields[field := if field in fields then fields[field] + delta else delta]]
  }

  /** What the writer stores for a payload: unread, stamped with server time. */
  function Fresh(p: Payload): (n: Notification)
    ensures !n.read && n.payload == p
  {
    Notification(p, false, ServerTime)
  }

  /** Appends one fresh notification to the recipient's list; no other
      recipient and no other collection changes. */
  function AddNotification(s: Store, target: Uid, p: Payload): (s': Store)
    ensures s' == s.(notifications := s'.notifications)
    ensures NotificationsOf(s', target) == NotificationsOf(s, target) + [Fresh(p)]
    ensures forall u :: u != target ==> NotificationsOf(s', u) == NotificationsOf(s, u)
  {
    s.(notifications := s.notifications[target := NotificationsOf(s, target) + [Fresh(p)]])
  }

  /** `k` copies of a notification. */
  function Copies(n: Notification, k: nat): (r: seq<Notification>)
    ensures |r| == k && forall i :: 0 <= i < k ==> r[i] == n
  {
    if k == 0 then [] else [n] + Copies(n, k - 1)
  }

  lemma CopiesAdd(n: Notification, a: nat, b: nat)
    ensures Copies(n, a) + Copies(n, b) == Copies(n, a + b)
  {
  }

  /** Two appends of copies make one append of their total. */
  lemma CopiesChain(a: seq<Notification>, b: seq<Notification>, c: seq<Notification>, n: Notification, j: nat, k: nat)
    requires b == a + Copies(n, j) && c == b + Copies(n, k)
    ensures c == a + Copies(n, j + k)
  {
    CopiesAdd(n, j, k);
  }

  /** The multiplicity of `u` in a non-empty sequence, split at its head. */
  lemma CountCons<T>(xs: seq<T>, u: T)
    requires |xs| > 0
    ensures multiset(xs)[u] == (if u == xs[0] then 1 else 0) + multiset(xs[1..])[u]
  {
    assert xs == [xs[0]] + xs[1..];
  }

  /** One notification per entry of `targets`, in order. */
  function NotifyAll(s: Store, targets: seq<Uid>, p: Payload): (s': Store)
    ensures s' == s.(notifications := s'.notifications)
    ensures forall u :: u !in targets ==> NotificationsOf(s', u) == NotificationsOf(s, u)
    decreases |targets|
  {
    if |targets| == 0 then s
    else NotifyAll(AddNotification(s, targets[0], p), targets[1..], p)
  }

  /** Each user receives as many copies as they occur in `targets`. */
  lemma {:induction false} NotifyAllCounts(s: Store, targets: seq<Uid>, p: Payload, u: Uid)
    ensures NotificationsOf(NotifyAll(s, targets, p), u)
         == NotificationsOf(s, u) + Copies(Fresh(p), multiset(targets)[u])
    decreases |targets|
  {
    if |targets| > 0 {
      var s1 := AddNotification(s, targets[0], p);
      var rest := targets[1..];
      NotifyAllCounts(s1, rest, p, u);
      CountCons(targets, u);
      CopiesAdd(Fresh(p), if u == targets[0] then 1 else 0, multiset(rest)[u]);
    }
  }

  /** Increments of one counter add up: the final value is the initial value
      plus the sum of the deltas, whatever their order. */
  function Sum(deltas: seq<int>): int {
    if |deltas| == 0 then 0 else deltas[0] + Sum(deltas[1..])
  }

  function IncAll(s: Store, uid: Uid, field: string, deltas: seq<int>): Store
    decreases |deltas|
  {
    if |deltas| == 0 then s else IncAll(IncUser(s, uid, field, deltas[0]), uid, field, deltas[1..])
  }

  lemma {:induction false} IncrementsAddUp(s: Store, uid: Uid, field: string, deltas: seq<int>)
    ensures CountOf(IncAll(s, uid, field, deltas), uid, field) == CountOf(s, uid, field) + Sum(deltas)
    ensures IncAll(s, uid, field, deltas) == s.(counters := IncAll(s, uid, field, deltas).counters)
    decreases |deltas|
  {
    if |deltas| > 0 {
      IncrementsAddUp(IncUser(s, uid, field, deltas[0]), uid, field, deltas[1..]);
    }
  }

  /** Two increments commute, so concurrent adjustments of the same or of
      different fields reach the same store in either order. */
  lemma IncUserCommutes(s: Store, u1: Uid, f1: string, a: int, u2: Uid, f2: string, b: int)
    ensures IncUser(IncUser(s, u1, f1, a), u2, f2, b) == IncUser(IncUser(s, u2, f2, b), u1, f1, a)
  {
    BumpCommutes(s.counters, u1, f1, a, u2, f2, b);
  }

  lemma BumpCommutes(c: map<Uid, map<string, int>>, u1: Uid, f1: string, a: int, u2: Uid, f2: string, b: int)
    ensures Bump(Bump(c, u1, f1, a), u2, f2, b) == Bump(Bump(c, u2, f2, b), u1, f1, a)
  {
    if u1 != u2 {
      BumpOtherUsers(c, u1, f1, a, u2, f2, b);
    } else if f1 == f2 {
      BumpSameField(c, u1, f1, a, b);
    } else {
      BumpOtherFields(c, u1, f1, a, f2, b);
    }
  }

  lemma UpdateTwice<K, V>(m: map<K, V>, k: K, x: V, y: V)
    ensures m[k := x][k := y] == m[k := y]
  {
  }

  lemma UpdateSwap<K, V>(m: map<K, V>, k1: K, x: V, k2: K, y: V)
    requires k1 != k2
    ensures m[k1 := x][k2 := y] == m[k2 := y][k1 := x]
  {
  }

  lemma BumpOtherUsers(c: map<Uid, map<string, int>>, u1: Uid, f1: string, a: int, u2: Uid, f2: string, b: int)
    requires u1 != u2
    ensures Bump(Bump(c, u1, f1, a), u2, f2, b) == Bump(Bump(c, u2, f2, b), u1, f1, a)
  {
    var F1: map<string, int> := if u1 in c then c[u1] else map[];
    var F2: map<string, int> := if u2 in c then c[u2] else map[];
    var G1 := F1[f1 := if f1 in F1 then F1[f1] + a else a];
    var G2 := F2[f2 := if f2 in F2 then F2[f2] + b else b];
    assert Bump(c, u1, f1, a) == c[u1 := G1];
    assert Bump(c, u2, f2, b) == c[u2 := G2];
    assert Bump(c[u1 := G1], u2, f2, b) == c[u1 := G1][u2 := G2];
    assert Bump(c[u2 := G2], u1, f1, a) == c[u2 := G2][u1 := G1];
    UpdateSwap(c, u1, G1, u2, G2);
  }

  lemma BumpSameField(c: map<Uid, map<string, int>>, u: Uid, f: string, a: int, b: int)
    ensures Bump(Bump(c, u, f, a), u, f, b) == Bump(Bump(c, u, f, b), u, f, a)
  {
    var F: map<string, int> := if u in c then c[u] else map[];
    var v := if f in F then F[f] else 0;
    assert Bump(c, u, f, a) == c[u := F[f := v + a]];
    assert Bump(c, u, f, b) == c[u := F[f := v + b]];
    assert Bump(c[u := F[f := v + a]], u, f, b) == c[u := F[f := v + a]][u := F[f := v + a][f := v + a + b]];
    assert Bump(c[u := F[f := v + b]], u, f, a) == c[u := F[f := v + b]][u := F[f := v + b][f := v + b + a]];
    UpdateTwice(F, f, v + a, v + a + b);
    UpdateTwice(F, f, v + b, v + b + a);
    UpdateTwice(c, u, F[f := v + a], F[f := v + a + b]);
    UpdateTwice(c, u, F[f := v + b], F[f := v + a + b]);
  }

  lemma BumpOtherFields(c: map<Uid, map<string, int>>, u: Uid, f1: string, a: int, f2: string, b: int)
    requires f1 != f2
    ensures Bump(Bump(c, u, f1, a), u, f2, b) == Bump(Bump(c, u, f2, b), u, f1, a)
  {
    var F: map<string, int> := if u in c then c[u] else map[];
    var v1 := if f1 in F then F[f1] + a else a;
    var v2 := if f2 in F then F[f2] + b else b;
    assert Bump(c, u, f1, a) == c[u := F[f1 := v1]];
    assert Bump(c, u, f2, b) == c[u := F[f2 := v2]];
    assert Bump(c[u := F[f1 := v1]], u, f2, b) == c[u := F[f1 := v1]][u := F[f1 := v1][f2 := v2]];
    assert Bump(c[u := F[f2 := v2]], u, f1, a) == c[u := F[f2 := v2]][u := F[f2 := v2][f1 := v1]];
    UpdateSwap(F, f1, v1, f2, v2);
    UpdateTwice(c, u, F[f1 := v1], F[f1 := v1][f2 := v2]);
    UpdateTwice(c, u, F[f2 := v2], F[f1 := v1][f2 := v2]);
  }
}

=== FILE: tallies.dfy ===
/** The derived counters against the documents they count. Each
    `followersCount`, `followingCount` and `postsCount` is meant to equal the
    number of follower edges, following edges and posts of its user; the
    triggers keep it so, because a trigger fires exactly when a document is
    created (a write over an existing document is an update) or deleted. */
module Tallies {
  import opened Basics
  import opened Store
  import opened Handlers

  function OwnedBy(links: set<Link>, u: Uid): set<Link> {
    set l | l in links && l.owner == u
  }

  function AuthoredBy(posts: map<PostId, Post>, u: Uid): set<PostId> {
    set p | p in posts && posts[p].authorId == u
  }

  ghost predicate FollowersTallied(s: Store) {
    forall u :: CountOf(s, u, FollowersCount) == |OwnedBy(s.followers, u)|
  }

  ghost predicate FollowingTallied(s: Store) {
    forall u :: CountOf(s, u, FollowingCount) == |OwnedBy(s.following, u)|
  }

  ghost predicate PostsTallied(s: Store) {
    forall u :: CountOf(s, u, PostsCount) == |AuthoredBy(s.posts, u)|
  }

  ghost predicate Tallied(s: Store) {
    FollowersTallied(s) && FollowingTallied(s) && PostsTallied(s)
  }

  lemma OwnedByInsert(links: set<Link>, l: Link, u: Uid)
    requires l !in links
    ensures |OwnedBy(links + {l}, u)| == |OwnedBy(links, u)| + (if l.owner == u then 1 else 0)
  {
    if l.owner == u {
      assert OwnedBy(links + {l}, u) == OwnedBy(links, u) + {l};
    } else {
      assert OwnedBy(links + {l}, u) == OwnedBy(links, u);
    }
  }

  lemma OwnedByRemove(links: set<Link>, l: Link, u: Uid)
    requires l in links
    ensures |OwnedBy(links - {l}, u)| == |OwnedBy(links, u)| - (if l.owner == u then 1 else 0)
  {
    if l.owner == u {
      assert OwnedBy(links - {l}, u) == OwnedBy(links, u) - {l};
    } else {
      assert OwnedBy(links - {l}, u) == OwnedBy(links, u);
    }
  }

  lemma AuthoredByInsert(posts: map<PostId, Post>, id: PostId, post: Post, u: Uid)
    requires id !in posts
    ensures |AuthoredBy(posts[id := post], u)| == |AuthoredBy(posts, u)| + (if post.authorId == u then 1 else 0)
  {
    if post.authorId == u {
      assert AuthoredBy(posts[id := post], u) == AuthoredBy(posts, u) + {id};
    } else {
      assert AuthoredBy(posts[id := post], u) == AuthoredBy(posts, u);
    }
  }

  // ---------- document events with the triggers they fire ----------

  /** A write of `users/{owner}/followers/{follower}`. */
  function WriteFollower(s: Store, owner: Uid, follower: Uid): Store {
    var l := Link(owner, follower);
    if l in s.followers then s else OnFollowerAdded(s.(followers := s.followers + {l}), owner, follower)
  }

  /** A delete of `users/{owner}/followers/{follower}`. */
  function DeleteFollower(s: Store, owner: Uid, follower: Uid): Store {
    var l := Link(owner, follower);
    if l !in s.followers then s else OnFollowerRemoved(s.(followers := s.followers - {l}), owner)
  }

  /** A write of `users/{owner}/following/{target}`. */
  function WriteFollowing(s: Store, owner: Uid, target: Uid): Store {
    var l := Link(owner, target);
    if l in s.following then s else OnFollowingAdded(s.(following := s.following + {l}), owner)
  }

  /** A delete of `users/{owner}/following/{target}`. */
  function DeleteFollowing(s: Store, owner: Uid, target: Uid): Store {
    var l := Link(owner, target);
    if l !in s.following then s else OnFollowingRemoved(s.(following := s.following - {l}), owner)
  }

  /** The creation of a new post document. */
  function CreatePost(s: Store, id: PostId, post: Post): Store
    requires id !in s.posts
  {
    OnPostCreated(s.(posts := s.posts[id := post]), post)
  }

  lemma {:induction false} WriteFollowerKeepsTallies(s: Store, owner: Uid, follower: Uid)
    requires Tallied(s)
    ensures Tallied(WriteFollower(s, owner, follower))
    ensures Link(owner, follower) in WriteFollower(s, owner, follower).followers
  {
    var l := Link(owner, follower);
    if l !in s.followers {
      var s' := WriteFollower(s, owner, follower);
      forall u
        ensures CountOf(s', u, FollowersCount) == |OwnedBy(s'.followers, u)|
      {
        OwnedByInsert(s.followers, l, u);
      }
      assert forall u, f :: f != FollowersCount ==> CountOf(s', u, f) == CountOf(s, u, f);
    }
  }

  lemma {:induction false} DeleteFollowerKeepsTallies(s: Store, owner: Uid, follower: Uid)
    requires Tallied(s)
    ensures Tallied(DeleteFollower(s, owner, follower))
    ensures Link(owner, follower) !in DeleteFollower(s, owner, follower).followers
  {
    var l := Link(owner, follower);
    if l in s.followers {
      var s' := DeleteFollower(s, owner, follower);
      forall u
        ensures CountOf(s', u, FollowersCount) == |OwnedBy(s'.followers, u)|
      {
        OwnedByRemove(s.followers, l, u);
      }
      assert forall u, f :: f != FollowersCount ==> CountOf(s', u, f) == CountOf(s, u, f);
    }
  }

  lemma {:induction false} WriteFollowingKeepsTallies(s: Store, owner: Uid, target: Uid)
    requires Tallied(s)
    ensures Tallied(WriteFollowing(s, owner, target))
    ensures Link(owner, target) in WriteFollowing(s, owner, target).following
  {
    var l := Link(owner, target);
    if l !in s.following {
      var s' := WriteFollowing(s, owner, target);
      forall u
        ensures CountOf(s', u, FollowingCount) == |OwnedBy(s'.following, u)|
      {
        OwnedByInsert(s.following, l, u);
      }
      assert forall u, f :: f != FollowingCount ==> CountOf(s', u, f) == CountOf(s, u, f);
    }
  }

  lemma {:induction false} DeleteFollowingKeepsTallies(s: Store, owner: Uid, target: Uid)
    requires Tallied(s)
    ensures Tallied(DeleteFollowing(s, owner, target))
    ensures Link(owner, target) !in DeleteFollowing(s, owner, target).following
  {
    var l := Link(owner, target);
    if l in s.following {
      var s' := DeleteFollowing(s, owner, target);
      forall u
        ensures CountOf(s', u, FollowingCount) == |OwnedBy(s'.following, u)|
      {
        OwnedByRemove(s.following, l, u);
      }
      assert forall u, f :: f != FollowingCount ==> CountOf(s', u, f) == CountOf(s, u, f);
    }
  }

  lemma {:induction false} CreatePostKeepsTallies(s: Store, id: PostId, post: Post)
    requires id !in s.posts
    requires Tallied(s)
    ensures Tallied(CreatePost(s, id, post))
  {
    var s' := CreatePost(s, id, post);
    forall u
      ensures CountOf(s', u, PostsCount) == |AuthoredBy(s'.posts, u)|
    {
      AuthoredByInsert(s.posts, id, post, u);
    }
    assert forall u, f :: f != PostsCount ==> CountOf(s', u, f) == CountOf(s, u, f);
  }

  /** Approval followed by the triggers its batch fires: the follower-side
      trigger when the follower edge is new, the following-side trigger when
      the following edge is new. */
  function ApproveAndSettle(s: Store, caller: Option<Uid>, followerUid: Option<string>): CallOutcome {
    var out := ApproveFollowRequest(s, caller, followerUid);
    if out.reply.Failure? then out
    else
      var owner := caller.value;
      var follower := followerUid.value;
      var s1 := if Link(owner, follower) in s.followers then out.store
                else OnFollowerAdded(out.store, owner, follower);
      var s2 := if Link(follower, owner) in s.following then s1
                else OnFollowingAdded(s1, follower);
      CallOutcome(s2, out.reply)
  }

  /** The tallies read only counters, edges and posts. */
  lemma TalliedFrame(s: Store, t: Store)
    requires s.counters == t.counters && s.followers == t.followers
    requires s.following == t.following && s.posts == t.posts
    ensures Tallied(s) == Tallied(t)
  {
  }

  /** A successful approval and its triggers are the two edge writes, after
      the request is deleted. */
  lemma ApproveIsTwoWrites(s: Store, caller: Option<Uid>, followerUid: Option<string>)
    requires ApproveFollowRequest(s, caller, followerUid).reply.Success?
    ensures caller.Some? && followerUid.Some?
    ensures var r := s.(requests := s.requests - {Link(caller.value, followerUid.value)});
            ApproveAndSettle(s, caller, followerUid).store
            == WriteFollowing(WriteFollower(r, caller.value, followerUid.value), followerUid.value, caller.value)
  {
    var owner := caller.value;
    var follower := followerUid.value;
    var r := s.(requests := s.requests - {Link(owner, follower)});
    assert ApproveFollowRequest(s, caller, followerUid).store
        == r.(followers := r.followers + {Link(owner, follower)}, following := r.following + {Link(follower, owner)});
    SettleIsTwoWrites(r, owner, follower);
  }

  /** The batch's two edge inserts followed by the triggers for the new
      edges equal the two edge writes one after the other. */
  lemma SettleIsTwoWrites(r: Store, owner: Uid, follower: Uid)
    ensures var l1 := Link(owner, follower);
            var l2 := Link(follower, owner);
            var batch := r.(followers := r.followers + {l1}, following := r.following + {l2});
            var s1 := if l1 in r.followers then batch else OnFollowerAdded(batch, owner, follower);
            (if l2 in r.following then s1 else OnFollowingAdded(s1, follower))
            == WriteFollowing(WriteFollower(r, owner, follower), follower, owner)
  {
    var l1 := Link(owner, follower);
    var l2 := Link(follower, owner);
    var batch := r.(followers := r.followers + {l1}, following := r.following + {l2});
    var s1 := if l1 in r.followers then batch else OnFollowerAdded(batch, owner, follower);
    var w := WriteFollower(r, owner, follower);
    assert s1 == w.(following := w.following + {l2}) by {
      if l1 !in r.followers {
        FollowerAddedFrame(batch, r.(followers := r.followers + {l1}), owner, follower);
      }
    }
    assert w.following == r.following;
    if l2 in r.following {
      assert s1 == w;
    }
  }

  /** The follower-side trigger reads only profiles, counters and
      notifications, and writes only counters and notifications. */
  lemma FollowerAddedFrame(a: Store, b: Store, uid: Uid, follower: Uid)
    requires a.profiles == b.profiles && a.counters == b.counters && a.notifications == b.notifications
    ensures OnFollowerAdded(a, uid, follower)
         == a.(counters := OnFollowerAdded(b, uid, follower).counters,
               notifications := OnFollowerAdded(b, uid, follower).notifications)
  {
  }

  /** An approval and its triggers keep every counter equal to what it counts. */
  lemma {:induction false} ApproveKeepsTallies(s: Store, caller: Option<Uid>, followerUid: Option<string>)
    requires Tallied(s)
    ensures Tallied(ApproveAndSettle(s, caller, followerUid).store)
  {
    var out := ApproveFollowRequest(s, caller, followerUid);
    if out.reply.Success? {
      var owner := caller.value;
      var follower := followerUid.value;
      var r := s.(requests := s.requests - {Link(owner, follower)});
      TalliedFrame(s, r);
      WriteFollowerKeepsTallies(r, owner, follower);
      var w := WriteFollower(r, owner, follower);
      WriteFollowingKeepsTallies(w, follower, owner);
      ApproveIsTwoWrites(s, caller, followerUid);
    }
  }
}

=== FILE: text.dfy ===
/** String helpers used to build notification bodies. Strings are sequences
    of characters; `length` and `substring` count characters. */
module Text {

  /** Longest chat body shown in a notification before it is cut short. */
  const PreviewCap: nat := 120
  /** Longest comment body shown in a comment notification. */
  const CommentCap: nat := 60
  const Ellipsis := "..."
  const MediaPlaceholder := "[Media]"
  const NewMessagePlaceholder := "[New message]"

  function Min(a: nat, b: nat): nat {
    if a <= b then a else b
  }

  /** `text.substring(0, n)`: the first `n` characters, or all of them. */
  function Prefix(text: string, n: nat): (r: string)
    ensures |r| == Min(n, |text|)
    ensures r <= text
    ensures |text| <= n ==> r == text
  {
    if |text| <= n then text else text[..n]
  }

  /** The body of a chat notification: a placeholder for a text-less message
      with attachments, the text cut to 120 characters plus an ellipsis when
      it is longer, and the text itself otherwise. */
  function ChatPreview(text: string, attachments: nat): (r: string)
    ensures text == "" && attachments > 0 ==> r == MediaPlaceholder
    ensures text == "" && attachments == 0 ==> r == ""
    ensures |text| > PreviewCap ==>
              |r| == PreviewCap + 3 && r[..PreviewCap] == text[..PreviewCap] && r[PreviewCap..] == Ellipsis
    ensures 0 < |text| <= PreviewCap ==> r == text
    ensures |r| <= PreviewCap + 3
    ensures r == "" <==> text == "" && attachments == 0
  {
    if |text| == 0 then
      (if attachments > 0 then MediaPlaceholder else "")
    else if |text| > PreviewCap then
      Prefix(text, PreviewCap) + Ellipsis
    else
      text
  }

  /** The push notification body: the preview, or a placeholder when the
      preview is empty. */
  function PushBody(preview: string): (r: string)
    ensures r != ""
    ensures preview != "" ==> r == preview
    ensures preview == "" ==> r == NewMessagePlaceholder
  {
    if preview == "" then NewMessagePlaceholder else preview
  }
}
